=== FILE: README.md ===
# photo-assistant core, modelled in Dafny

This project models the deterministic core of the photo-assistant application in Dafny.

- **FAQ engine.** The FAQ document with its categories and entries, and its loading and default corpus. Lookup by question, keyword search with relevance scores and a stable sort, adding a question, the lexical fallback matcher, and the embedding-based best answer and top-k shortlist. The similarities, `argmax` and `topk` come from the sentence model, so here they are inputs.
- **Vision reply.** How a Cloud Vision `images:annotate` reply becomes a description, a label list and the OCR text pieces. Also the canned reply used without an API key.
- **Language-model text.** Parsing a `DESCRIPTION:`/`TAGS:` reply, the canned chat replies, the canned description and tags, and the context built from a vision reply. It also proves that a reply in the layout the prompt asks for parses back to what was written.
- **Performance monitor.** The call counters and history records of `end_operation`, history cleanup, the summary statistics without rounding, the health status, and the `monitor_operation` wrapper.

Python's exceptions become values (`Outcome.Raised`) where they escape a function. Where the source catches them, they become the source's own fallback value. Python's `lower`, `title`, `split`, `strip`, `replace`, `in` and `join` are modelled over ASCII in module `Text`.

Modules:
- `Wrappers`: Option and Outcome
- `Text`: string helpers
- `Corpus`: FAQ document, lookup, search, add, default
- `Lexical`: fallback matcher
- `Engine`: model-based answer and shortlist
- `Annotations`: the vision reply
- `Vision`: description, labels, text
- `ReplyLine`: one reply line
- `Llm`: reply parsing, canned replies, context
- `ReplyFormat`: the prompt's reply layout and its round trip
- `Monitor`: performance monitor

## Model

| member | source | states |
|---|---|---|
| Corpus.Flatten | faq/faq_handler.py:121-131 | An entry is listed exactly when some category holds it; categories and entries keep their order. |
| Corpus.FlattenAppend | faq/faq_handler.py:121-131 | Listing the entries of two runs of categories is listing each in turn. |
| Corpus.FlattenIndex | faq/faq_handler.py:121-131 | The j-th entry of category i sits in the flat list at the count of entries before i, plus j. |
| Corpus.GetCategories | faq/faq_handler.py:236-243 | The i-th key is the key of the i-th category, so keys come in mapping order, once per category; a key is listed exactly when some category has it; no categories gives none. |
| Corpus.IndexOfKey | faq/faq_handler.py:201-206 | Finds the position of a category key, and reports none exactly when the key is absent. |
| Corpus.FirstQuestionMatch | faq/faq_handler.py:181-185 | The first entry, in document order, whose lower-cased question equals the lower-cased query; none only when no entry matches. |
| Corpus.GetQuestionAnswer | faq/faq_handler.py:170-187 | Returns None exactly when no question matches case-insensitively; otherwise the answer of the first match. |
| Corpus.LookupIgnoresCase | faq/faq_handler.py:179-183 | Looking up a question or its lower-cased form gives the same answer. |
| Corpus.Relevance | faq/faq_handler.py:152-156 | The score is 0, 1, 3 or 4. It is at least 3 exactly when the query occurs in the question. It leaves remainder 1 when divided by 3 (it is 1 or 4) exactly when the query occurs in the answer. |
| Corpus.EntryMatchesPairs | faq/faq_handler.py:147-165 | The matches of one category are its relevant entries, in order. |
| Corpus.MatchesAreRelevantEntries | faq/faq_handler.py:146-165 | The matches over all categories are the relevant entries of the flat list, in order. |
| Corpus.Insert | faq/faq_handler.py:167 | Inserting into a list sorted by descending score keeps it sorted and adds exactly the one match. |
| Corpus.InsertWithScore | faq/faq_handler.py:167 | Among the matches of one score, insertion puts the new match first and keeps the order of the others; other scores are untouched. |
| Corpus.SortByScore | faq/faq_handler.py:167 | The sort gives a descending-score permutation of its input. |
| Corpus.SortStable | faq/faq_handler.py:167 | Matches of any one score keep their relative order through the sort. |
| Corpus.SearchQuestions | faq/faq_handler.py:133-168 | The result is sorted by descending score, and every score is 1, 3 or 4. It is a permutation of the matches in document order, and equal-score matches keep document order. |
| Corpus.EmptyQueryMatchesAll | faq/faq_handler.py:143-165 | The empty query occurs in every question, so searching for it returns every entry of the corpus, in corpus order. |
| Corpus.AddQuestion | faq/faq_handler.py:189-222 | Success exactly when categories and metadata both exist. The entry is appended to its category, or to a new category named by title case at the end. The count goes up by one only on success. Without categories nothing changes. Without metadata the entry stays and the result is failure. |
| Corpus.AddQuestionCount | faq/faq_handler.py:208-211 | An add makes one more entry, and keeps the advisory count consistent when it was. |
| Corpus.AddQuestionKeys | faq/faq_handler.py:201-206 | After an add, the category keys are the old ones, plus the new key at the end if it was absent. |
| Corpus.AddQuestionDistinct | faq/faq_handler.py:201-206 | Adding keeps category keys distinct. |
| Corpus.AddAtEndKeepsIndices | faq/faq_handler.py:208-211 | An add to the last category, or to a new one, keeps every earlier entry at its flat position. |
| Corpus.AddShiftsLaterIndices | faq/faq_handler.py:208-211 | An add to the first default category moves the new entry into flat position 3, where the first "analysis" entry was. |
| Corpus.DefaultShape | faq/faq_handler.py:58-119 | The default corpus has three categories with distinct keys and nine entries, and its count says nine. |
| Corpus.Load | faq/faq_handler.py:41-56 | Returns the parsed document, or the consistent built-in default when the file is missing or unreadable. |
| Lexical.Overlap | faq/faq_handler.py:325-335 | The word overlap lies in [0, 1], and is positive exactly when the query and question share a word. |
| Lexical.LexicalScore | faq/faq_handler.py:329-343 | A fallback score lies between 0 and 1.8. |
| Lexical.ScoreAboveCutoff | faq/faq_handler.py:329-349 | A score is at least 0.5 exactly when a question word occurs in the query. It clears the 0.2 cut-off exactly when it is positive, which is exactly when a question or answer word occurs in the query. |
| Lexical.RunningBest | faq/faq_handler.py:318-347 | The scan keeps the first maximal score, and only when it is positive. |
| Lexical.FallbackAnswer | faq/faq_handler.py:307-352 | Never empty. It is either the fixed message, or the answer of the first maximal entry whose score beats 0.2. That answer is returned whenever it is non-empty. All scores at or below 0.2 give the message. |
| Lexical.EmptyQueryNoAnswer | faq/faq_handler.py:307-352 | An empty query always gets the fixed message. |
| Lexical.SingleEntry | faq/faq_handler.py:307-352 | With one entry, the reply is its answer or the message. It is the answer whenever that is non-empty and one of its words occurs in the query. |
| Engine.NewHandler | faq/faq_handler.py:20-39 | The handler holds the loaded corpus. Its cache of questions exists exactly when the model loaded and encoding succeeded, and it lists every question in order. |
| Engine.Add | faq/faq_handler.py:189-222 | An add changes only the corpus, never the model or the embedding cache, and the cache still fits. |
| Engine.AnswerQuestion | faq/faq_handler.py:265-305 | On the model path the reply is the best entry's answer when its similarity is at least 0.3, and the fixed message otherwise. Every other path gives the lexical fallback. |
| Engine.AnswerIsStoredOrMessage | faq/faq_handler.py:265-305 | Every reply is the fixed message or a stored answer. |
| Engine.AnswerNonEmpty | faq/faq_handler.py:265-305 | With no empty answers in the corpus, every reply is non-empty. |
| Engine.AnswerStableAfterAddAtEnd | faq/faq_handler.py:287-298 | After an add at the end, a ranking over the old cache gives the same answer. |
| Engine.Collect | faq/faq_handler.py:378-388 | Returns None exactly when a chosen position inside the corpus lies outside the similarities. Otherwise each triple describes a chosen entry with its similarity. When every position lies inside the corpus, the m-th triple describes the entry at the m-th position. |
| Engine.CollectOrdered | faq/faq_handler.py:376-388 | Positions in non-increasing similarity order give triples in non-increasing score order. |
| Engine.GetSimilarQuestions | faq/faq_handler.py:354-392 | Empty without the model or cache, on error, and for a negative top-k. Otherwise each triple is taken from the entry at a chosen position. When every chosen position lies inside the similarities and the corpus, the m-th triple describes the entry at the m-th position with its similarity. |
| Engine.NoModelNoShortlist | faq/faq_handler.py:366-367 | Without the model the shortlist is always empty. |
| Engine.ShortlistIsTopK | faq/faq_handler.py:376-388 | Distinct positions that honour the topk promise give exactly min(top_k, N) triples, in non-increasing score order, the m-th describing the entry at the m-th position. No entry left out has a higher similarity than any entry in the shortlist. |
| Annotations.FirstResponse | cloud/vision_api.py:97 | Taking the first response raises exactly when the list is empty. |
| Vision.Truncate | cloud/vision_api.py:115-117 | Text of at most 100 characters is kept. Longer text becomes its first 100 characters followed by "...". |
| Vision.DescriptionParts | cloud/vision_api.py:100-123 | There is one part per non-empty annotation kind, in the fixed order labels, objects, text, faces: the labels sentence comes first, then the objects sentence, then the sentence for the first text annotation, and the faces sentence comes last. |
| Vision.FirstLabelsNamed | cloud/vision_api.py:100-126 | Each of the first three label descriptions occurs in the generated description. |
| Vision.GenerateDescription | cloud/vision_api.py:84-128 | Gives the "unable" message without responses, and raises on an empty list. Otherwise the parts are joined by ". ", or the "no details" message appears when there are none. Never empty. |
| Vision.OnlyFirstThreeNamed | cloud/vision_api.py:101-111 | Labels and objects after the third never reach the description. |
| Vision.OnlyFirstTextAnnotation | cloud/vision_api.py:113-118 | Text annotations after the first never reach the description. |
| Vision.FacesPartCounts | cloud/vision_api.py:120-123 | The last part prints a number that reads back as the face count. |
| Vision.ExtractLabels | cloud/vision_api.py:130-146 | Every label description, in order. None without responses, and raises on an empty list. |
| Vision.AnalyzeImage | cloud/vision_api.py:72-82 | Returns the description and labels, or the error message with no labels when either raised. |
| Vision.ExtractText | cloud/vision_api.py:214-217 | Returns the text of every annotation after the first, with a missing text read as empty. |
| Vision.MockResponse | cloud/vision_api.py:148-170 | The canned reply has one response with three labels, one text annotation and one object. |
| Vision.SampleReply | tests/test_vision_api.py:53-93 | The test reply's description names its labels, object and text in that order, and its labels come out in order. |
| Vision.EmptyReply | tests/test_vision_api.py:76-99 | An empty reply gives the "unable" message and no labels. |
| Vision.MockLabels | cloud/vision_api.py:148-170 | The canned reply's labels are nature, landscape and outdoor. |
| Vision.MockParts | cloud/vision_api.py:148-170 | The canned reply's description parts are its labels, object and text. |
| Vision.AnalyzeMockReply | cloud/vision_api.py:70-78 | Analysing the canned reply gives its full description and all three labels. |
| ReplyLine.StrippedPieces | cloud/llm_api.py:263-264 | The stripped pieces are clean and non-empty. Every non-empty stripped piece is kept and nothing else appears. |
| ReplyLine.StrippedPiecesKeepAll | cloud/llm_api.py:263-264 | Pieces that all strip to non-empty tags keep every tag in order. |
| ReplyLine.ParseTags | cloud/llm_api.py:260-264 | A tags line yields clean tags. |
| ReplyLine.Classify | cloud/llm_api.py:256-264 | A line is a description line exactly when its stripped form starts with DESCRIPTION:. It is a tags line exactly when it does not, but starts with TAGS:. |
| Llm.LastDescription | cloud/llm_api.py:256-259 | There is no description exactly when no line is a description line. |
| Llm.LastTags | cloud/llm_api.py:260-264 | There are no tags exactly when no line is a tags line. |
| Llm.LastDescriptionAt | cloud/llm_api.py:256-259 | The description comes from the last description line. |
| Llm.LastTagsAt | cloud/llm_api.py:260-264 | The tags come from the last tags line. |
| Llm.Scan | cloud/llm_api.py:256-264 | The front-to-back loop ends with what the last line of each kind said, or its starting values. |
| Llm.ParseDescriptionTags | cloud/llm_api.py:241-272 | The description and tags are never empty, and the tags are clean. The description is the last line's text, or the fixed sentence when that is missing or empty. The tags are likewise the last line's tags or the fixed ones. |
| Llm.NoMarkersGiveDefaults | cloud/llm_api.py:266-270 | A reply with no marker lines gets the fixed description and tags. |
| Llm.LastDescriptionWins | cloud/llm_api.py:256-259 | The last description line decides the description. |
| Llm.LastTagsWin | cloud/llm_api.py:260-264 | The last tags line decides the tags. |
| Llm.DescriptionBeforeTags | cloud/llm_api.py:258-260 | A line with both markers that starts with DESCRIPTION: never yields tags. |
| Llm.FirstKeyIn | cloud/llm_api.py:162-165 | Finds the first key that occurs in the text; none exactly when no key does. |
| Llm.CannedReply | cloud/llm_api.py:152-167 | Gives the reply of the first listed key in the lower-cased prompt, or the default reply when no key occurs. |
| Llm.CannedReplyIgnoresCase | cloud/llm_api.py:162-165 | The canned reply ignores case. |
| Llm.FirstKeyWins | cloud/llm_api.py:154-165 | A prompt containing the first key gets its reply. |
| Llm.TopicOf | cloud/llm_api.py:280-291 | Picks the first case whose word occurs, checked in priority order: nature or landscape, then text, then face or person. |
| Llm.CannedDescriptionTags | cloud/llm_api.py:278-294 | Gives each case's fixed description and tags, which are never empty and always clean. |
| Llm.CannedDescriptionTagsIgnoresCase | cloud/llm_api.py:280-291 | The canned description and tags ignore case. |
| Llm.FormatAnalysis | cloud/llm_api.py:112-150 | Gives the "no data" message without responses, and raises on an empty list. Otherwise the parts are joined by newlines, or the "no details" message appears when there are none. |
| Llm.ContextParts | cloud/llm_api.py:126-148 | There is one part per non-empty labels, text or objects list, in that order. The labels line comes first and lists the first five labels, each as "name (score)". The line with the whole first text annotation follows. The objects line comes last and lists the first three objects, each as "name (score)". |
| Llm.ContextNamesLabels | cloud/llm_api.py:129-134 | Each of the first five labels reaches the context, as its name and as "name (score)". |
| Llm.ContextNamesObjects | cloud/llm_api.py:143-148 | Each of the first three objects reaches the context, as its name and as "name (score)". |
| Llm.ContextUsesFirstFew | cloud/llm_api.py:129-147 | Only the first five labels and the first three objects reach the context. |
| Llm.ContextKeepsWholeText | cloud/llm_api.py:137-140 | The context contains the whole text found, uncut. |
| ReplyFormat.DescriptionPartParses | cloud/llm_api.py:191-192 | A description line in the prompt's layout reads back as its description. |
| ReplyFormat.TagsPartParses | cloud/llm_api.py:191-193 | A bracketed tags line in the prompt's layout reads back as its tags. |
| ReplyFormat.ParseFormatted | cloud/llm_api.py:191-193 | A reply written in the prompt's layout parses back to exactly its description and tags. |
| Monitor.NewMonitor | monitoring.py:33-40 | A fresh monitor has no calls and no history, and is valid. |
| Monitor.Rate | monitoring.py:72 | The rate lies in [0, 100], is the share of part in calls times 100, and is 0 without calls. |
| Monitor.RatesComplement | monitoring.py:122-123 | Success and error rates add up to 100 once there was a call. |
| Monitor.EndOperation | monitoring.py:56-95 | Counts one more call, as a success or an error, before the readings are taken. When the readings succeed, appends one record holding the counters after the increment and the readings. When they raise, adds no record and passes the error on. Keeps the monitor valid. |
| Monitor.CleanupAsWritten | monitoring.py:196-200 | Keeps the history when it is within the limit. For a positive limit, keeps its last max_history records. |
| Monitor.CleanupZeroKeepsAll | monitoring.py:198-199 | A limit of 0 keeps the whole non-empty history. |
| Monitor.CleanupNegativeDropsFront | monitoring.py:198-199 | A limit of -1 drops the first record instead of keeping none. |
| Monitor.Cleanup | monitoring.py:196-200 | Keeps the last max(0, max_history) records in order, and changes nothing else. |
| Monitor.CleanupAgreesAbove0 | monitoring.py:196-200 | The corrected cleanup agrees with the written one on every positive limit. |
| Monitor.DefaultCleanupAsIntended | monitoring.py:196-200 | With the default limit of 1000, the written cleanup keeps exactly the last min(len, 1000) records, as intended. |
| Monitor.CleanupValid | monitoring.py:196-200 | Cleanup keeps the monitor valid. |
| Monitor.CleanupAsWrittenValid | monitoring.py:196-200 | The written cleanup also keeps the monitor valid, on every limit. |
| Monitor.CleanupIdempotent | monitoring.py:196-200 | Cleaning up twice with one limit is cleaning up once. |
| Monitor.MinOf | monitoring.py:151 | The minimum is an element no larger than any. |
| Monitor.MaxOf | monitoring.py:152 | The maximum is an element no smaller than any. |
| Monitor.Sort | monitoring.py:153 | The sort gives a non-decreasing permutation. |
| Monitor.Median | monitoring.py:153 | The median is the element at position len/2 of the values in sorted order, whichever sorted arrangement is taken. It is one of the values and lies between the minimum and the maximum. |
| Monitor.SortedUnique | monitoring.py:153 | Two sorted sequences holding the same values are equal, so "the sorted list" is well defined. |
| Monitor.SortEnds | monitoring.py:151-153 | The sorted values run from the minimum to the maximum. |
| Monitor.AverageBounds | monitoring.py:150-152 | The average lies between the minimum and the maximum. |
| Monitor.PerformanceSummary | monitoring.py:138-163 | There are no metrics exactly when the history is empty. Otherwise it counts every record, minimum ≤ median ≤ maximum, minimum ≤ average ≤ maximum, and the success rate is in [0, 100]. The minimum, maximum and median are those of the processing times. The three averages are the sums of the processing times, memory readings and cpu readings divided by the number of records. The success rate is the monitor's, and the uptime times 3600 is the time since the start. |
| Monitor.StatusOf | monitoring.py:125 | The status is healthy exactly when memory and cpu are both below 90, and a warning otherwise. |
| Monitor.SystemHealth | monitoring.py:97-136 | Gives the error report exactly when the readings raised. Otherwise it reports the call total, the monitor's success and error rates, which add up to 100, the time since the start, and the status rule. |
| Monitor.MonitorOperation | monitoring.py:207-220 | A returned value passes through exactly when the call returned and the first reading succeeded; then one success is counted and one record added. A raised call counts one error and re-raises its error, or the reading's error. A returned call whose reading raises is counted twice, as a success and as an error, and raises. A record is added only for a successful reading. |

## Left out

- The HTTP requests to Cloud Vision and to the chat model, reading and base64-encoding the image, and API keys: the decoded reply or the reply text is an input.
- The sentence-embedding model: the cosine similarities, `torch.argmax` and `torch.topk` are inputs. `Engine.IsTopK` states what `topk` promises: distinct positions in non-increasing order of similarity, with no position left out more similar than the last one chosen.
- Writing the FAQ file: `_save_faq_data` swallows its own errors, so it never affects the result of an add. Reading the file is reduced to its outcome, `Corpus.Stored`.
- `time.time()`, `psutil`, logging, `print`, and the JSON export of the metrics: the clock and the system readings are parameters. A reading may fail: it is an `Outcome` in `end_operation` and `monitor_operation`, and an `Option` in `get_system_health`, so a raising `psutil` is modelled. Logging is assumed not to raise.
- `round(…, 2)` in the summary and health figures: the model keeps exact reals.
- Lexical.LexicalScore: scores are exact reals, while the source adds IEEE doubles. For example 0.1 + 0.5 + 0.3 is 0.8999999999999999 as a double but 0.9 here.
- Lexical.FallbackAnswer: two scores that are equal as reals can differ as doubles, so Python's strict `>` can pick a different entry. With corpus order [B, A] and the query "cat dog eel fox gnu", take B = ("cat bb cc dd ee ff gg hh ii jj", "eel") and A = ("cat dog hen owl yak", "zzz"). B scores 0.1 + 0.5 + 0.3 = 0.8999999999999999 and A scores 0.4 + 0.5 = 0.9 as doubles, so Python answers "zzz". Here both score 0.9, the first maximum B wins, and the answer is "eel".
- `Llm.ScoredLabels`: the `:.2f` formatting of a score is a function parameter, `fmt`.
- `get_labels`, `analyze_photo_with_question`, `generate_response` and `generate_description_tags` are network wrappers and are not part of this model.
- A label without a `description` key makes `_extract_labels` and `_generate_description` raise KeyError. Labels and objects in the model always carry their name.
- Default arguments: every member takes the argument explicitly. The defaults are constants: `top_k=3` of `get_similar_questions` (faq/faq_handler.py:354) is `Engine.DefaultTopK`, and `max_history=1000` of `cleanup_old_metrics` (monitoring.py:196) is `Monitor.DefaultMaxHistory`.
- A malformed FAQ document is not modelled, because `Entry` and `Category` always carry their fields. An entry without "question" or "answer", or a category without "name", makes `search_questions` and `get_question_answer` raise KeyError (faq/faq_handler.py:148-149, 162, 183-184). An existing category without "questions" makes `add_question` raise inside its `try` and return False (faq/faq_handler.py:208, 220-222). The readers' `.get("questions", [])` default is not needed here, because every category has a list of entries.
- A label or object without a `score` key makes `_format_analysis_for_llm` raise KeyError (cloud/llm_api.py:132,146). Labels and objects in the model always carry a score, so that error is not modelled.
- The `except` branch of `_parse_description_tags_response` (cloud/llm_api.py:274-276) cannot be reached for a string input, so it is not modelled.
- `Text`: lower-casing, title case and whitespace cover ASCII only. Python's Unicode case mapping and Unicode whitespace are not modelled.
- `_get_mock_response` of the vision client is modelled by its value (`Vision.MockResponse`). The scores are kept; only the bounding polygons, which nothing reads, are dropped.

Behaviour that follows the code rather than the written description of the program:
- `add_question` returns True even when saving the file fails, because the save catches its own errors.
- With categories present but metadata missing, `add_question` keeps the appended entry and returns False.
- `answer_question` on the model path returns the stored answer even when it is empty.
- The embedding cache is never refreshed. An add to a category other than the last moves later entries to new flat positions, so cached positions can name different entries (`Corpus.AddShiftsLaterIndices`).
- The fallback score is 0, 0.3 or at least 0.5 (`Lexical.ScoreAboveCutoff`), so the 0.2 cut-off is the same as requiring a positive score.

## Findings

| source | as written | input that shows it | evidently intended | confidence | as-written member | corrected member |
|---|---|---|---|---|---|---|
| monitoring.py:198-199 | `history[-max_history:]` when the history is longer than the limit | `max_history = 0` with any non-empty history: `history[-0:]` keeps everything. `max_history = -1` with three records keeps two. | keep the last `max(0, max_history)` records | not executed | Monitor.CleanupAsWritten (Monitor.CleanupZeroKeepsAll, Monitor.CleanupNegativeDropsFront) | Monitor.Cleanup (Monitor.CleanupValid, Monitor.CleanupIdempotent) |

=== FILE: annotations.dfy ===
/** The parts of a Cloud Vision `images:annotate` reply that the application
    reads. A missing annotation list reads as an empty one, as with
    `response.get(key, [])`. */
module Annotations {
  import opened Wrappers

  datatype Label = Label(description: string, score: real)

  /** The first text annotation covers all the text found; the later ones
      are its pieces. Its `description` key may be missing. */
  datatype TextAnnotation = TextAnnotation(description: Option<string>)

  datatype LocalizedObject = LocalizedObject(name: string, score: real)

  /** Only the number of faces is read. */
  datatype FaceAnnotation = FaceAnnotation

  datatype Response = Response(labels: seq<Label>, texts: seq<TextAnnotation>,
                               objects: seq<LocalizedObject>, faces: seq<FaceAnnotation>)

  /** The decoded reply. `responses` is missing from an empty or an error
      reply. */
  datatype AnalysisResult = AnalysisResult(responses: Option<seq<Response>>)

  /** The text of an annotation: `annotation.get('description', '')`. */
  function TextOf(a: TextAnnotation): string {
    a.description.GetOr("")
  }

  /** `analysis_result['responses'][0]` once `responses` is known to be
      present: an empty list raises. */
  function FirstResponse(rs: seq<Response>): (r: Outcome<Response>)
    ensures r.Ok? <==> |rs| > 0
    ensures r.Ok? ==> r.value == rs[0]
  {
    if |rs| == 0 then Raised(IndexError) else Ok(rs[0])
  }
}

=== FILE: corpus.dfy ===
/** The FAQ corpus: a document mapping category keys (in insertion order) to a
    display name and an ordered list of question/answer entries, plus an
    advisory metadata block. Flattening it gives the index space the
    matchers use. */
module Corpus {
  import opened Wrappers
  import opened Text

  datatype Entry = Entry(question: string, answer: string)

  datatype Category = Category(key: string, name: string, questions: seq<Entry>)

  /** `total_questions` is advisory: it is incremented on every add, never
      recomputed. */
  datatype Metadata = Metadata(version: string, lastUpdated: string, totalQuestions: int)

  /** The persisted document. Either block may be missing from a loaded file;
      readers treat missing categories as none, writers fail on them. */
  datatype Document = Document(categories: Option<seq<Category>>, metadata: Option<Metadata>)

  /** `faq_data.get("categories", {})`. */
  function Categories(doc: Document): seq<Category> {
    doc.categories.GetOr([])
  }

  /** A document is consistent when its advisory count matches its entries. */
  predicate Consistent(doc: Document) {
    doc.metadata.Some? && doc.metadata.value.totalQuestions == |AllEntries(doc)|
  }

  /** Category keys are those of a dictionary: no key twice. */
  predicate DistinctKeys(cs: seq<Category>) {
    forall i, j :: 0 <= i < j < |cs| ==> cs[i].key != cs[j].key
  }

  // -------------------------------------------------------------- flatten

  /** The entries of every category, categories in order, each category's
      entries in insertion order. */
  function Flatten(cs: seq<Category>): (es: seq<Entry>)
    ensures forall e :: e in es <==> exists c :: c in cs && e in c.questions
    decreases |cs|
  {
    if |cs| == 0 then []
    else
      assert forall c :: c in cs <==> c == cs[0] || c in cs[1..];
      cs[0].questions + Flatten(cs[1..])
  }

  /** `get_all_questions()`: the flattened corpus, the index space shared by
      the embedding cache and the fallback matcher. */
  function AllEntries(doc: Document): seq<Entry> {
    Flatten(Categories(doc))
  }

  lemma {:induction false} FlattenAppend(a: seq<Category>, b: seq<Category>)
    ensures Flatten(a + b) == Flatten(a) + Flatten(b)
    decreases |a|
  {
    if |a| > 0 {
      assert (a + b)[1..] == a[1..] + b;
      FlattenAppend(a[1..], b);
    } else {
      assert a + b == b;
    }
  }

  /** Entry `j` of category `i` sits at position `|Flatten(cs[..i])| + j` of
      the flattened corpus: categories in order, entries in order. */
  lemma FlattenIndex(cs: seq<Category>, i: nat, j: nat)
    requires i < |cs| && j < |cs[i].questions|
    ensures |Flatten(cs[..i])| + j < |Flatten(cs)|
    ensures Flatten(cs)[|Flatten(cs[..i])| + j] == cs[i].questions[j]
  {
    assert cs == cs[..i] + cs[i..];
    FlattenAppend(cs[..i], cs[i..]);
  }

  /** The flattened length is the sum of the category sizes. */
  function CountEntries(cs: seq<Category>): nat {
    if |cs| == 0 then 0 else |cs[0].questions| + CountEntries(cs[1..])
  }

  lemma {:induction false} FlattenLength(cs: seq<Category>)
    ensures |Flatten(cs)| == CountEntries(cs)
    decreases |cs|
  {
    if |cs| > 0 {
      FlattenLength(cs[1..]);
    }
  }

  // ----------------------------------------------------------- categories

  function Keys(cs: seq<Category>): (ks: seq<string>)
    ensures |ks| == |cs|
    ensures forall i :: 0 <= i < |cs| ==> ks[i] == cs[i].key
  {
    seq(|cs|, i requires 0 <= i < |cs| => cs[i].key)
  }

  /** `get_categories()`: the category keys in mapping order; none when the
      document has no categories. */
  function GetCategories(doc: Document): (ks: seq<string>)
    ensures doc.categories.None? ==> ks == []
    ensures |ks| == |Categories(doc)|
    ensures forall i :: 0 <= i < |ks| ==> ks[i] == Categories(doc)[i].key
    ensures forall k :: k in ks <==> exists i :: 0 <= i < |Categories(doc)| && Categories(doc)[i].key == k
  {
    var cs := Categories(doc);
    var ks := Keys(cs);
    assert forall k :: k in ks ==> exists i :: 0 <= i < |cs| && cs[i].key == k by {
      forall k | k in ks ensures exists i :: 0 <= i < |cs| && cs[i].key == k {
        var i :| 0 <= i < |ks| && ks[i] == k;
        assert cs[i].key == k;
      }
    }
    ks
  }

  /** The position of the category with this key (the first, should a
      malformed list hold it twice). */
  function IndexOfKey(cs: seq<Category>, key: string): (k: Option<nat>)
    ensures k.Some? ==> k.value < |cs| && cs[k.value].key == key
                        && forall j :: 0 <= j < k.value ==> cs[j].key != key
    ensures k.None? <==> key !in Keys(cs)
    decreases |cs|
  {
    if |cs| == 0 then None
    else if cs[0].key == key then Some(0)
    else
      match IndexOfKey(cs[1..], key)
      case None => None
      case Some(k) => Some(k + 1)
  }

  // --------------------------------------------------------- exact lookup

  /** Entry `k` is the first whose question equals `ql` once lower-cased. */
  predicate IsFirstQuestionMatch(es: seq<Entry>, ql: string, k: nat) {
    k < |es| && Lower(es[k].question) == ql
    && forall j :: 0 <= j < k ==> Lower(es[j].question) != ql
  }

  function FirstQuestionMatch(es: seq<Entry>, ql: string): (k: Option<nat>)
    ensures k.Some? ==> IsFirstQuestionMatch(es, ql, k.value)
    ensures k.None? ==> forall j :: 0 <= j < |es| ==> Lower(es[j].question) != ql
    decreases |es|
  {
    if |es| == 0 then None
    else if Lower(es[0].question) == ql then Some(0)
    else
      match FirstQuestionMatch(es[1..], ql)
      case None => None
      case Some(k) => Some(k + 1)
  }

  /** `get_question_answer(question)`: the answer of the first entry, in
      corpus order, whose question equals `question` ignoring case; `None`
      when there is none. */
  function GetQuestionAnswer(doc: Document, question: string): (r: Option<string>)
    ensures r.None? <==> forall j :: 0 <= j < |AllEntries(doc)| ==>
                          Lower(AllEntries(doc)[j].question) != Lower(question)
    ensures r.Some? ==> exists k: nat :: IsFirstQuestionMatch(AllEntries(doc), Lower(question), k)
                                    && r.value == AllEntries(doc)[k].answer
  {
    match FirstQuestionMatch(AllEntries(doc), Lower(question))
    case None => None
    case Some(k) => Some(AllEntries(doc)[k].answer)
  }

  /** The lookup ignores the case of the question asked. */
  lemma LookupIgnoresCase(doc: Document, question: string)
    ensures GetQuestionAnswer(doc, Lower(question)) == GetQuestionAnswer(doc, question)
  {
    LowerIdempotent(question);
  }

  // --------------------------------------------------------------- search

  datatype Match = Match(question: string, answer: string, category: string, score: int)

  /** Relevance of an entry to a lower-cased query: 3 when the query occurs
      in the lower-cased question, plus 1 when it occurs in the lower-cased
      answer. */
  function Relevance(ql: string, e: Entry): (score: int)
    ensures score == 0 || score == 1 || score == 3 || score == 4
    ensures score >= 3 <==> Contains(Lower(e.question), ql)
    ensures score % 3 == 1 <==> Contains(Lower(e.answer), ql)
  {
    (if Contains(Lower(e.question), ql) then 3 else 0)
    + (if Contains(Lower(e.answer), ql) then 1 else 0)
  }

  /** The entries with positive relevance, in order. */
  function Relevant(ql: string, es: seq<Entry>): seq<Entry>
    decreases |es|
  {
    if |es| == 0 then []
    else (if Relevance(ql, es[0]) > 0 then [es[0]] else []) + Relevant(ql, es[1..])
  }

  lemma {:induction false} RelevantAppend(ql: string, a: seq<Entry>, b: seq<Entry>)
    ensures Relevant(ql, a + b) == Relevant(ql, a) + Relevant(ql, b)
    decreases |a|
  {
    if |a| > 0 {
      assert (a + b)[1..] == a[1..] + b;
      RelevantAppend(ql, a[1..], b);
    } else {
      assert a + b == b;
    }
  }

  function EntryMatches(ql: string, name: string, es: seq<Entry>): (ms: seq<Match>)
    ensures forall i :: 0 <= i < |ms| ==>
              ms[i].score > 0 && ms[i].category == name
              && ms[i].score == Relevance(ql, Entry(ms[i].question, ms[i].answer))
    decreases |es|
  {
    if |es| == 0 then []
    else
      var s := Relevance(ql, es[0]);
      (if s > 0 then [Match(es[0].question, es[0].answer, name, s)] else [])
      + EntryMatches(ql, name, es[1..])
  }

  /** The unsorted matches: every relevant entry, in corpus order, with its
      category's display name and its relevance. */
  function Matches(ql: string, cs: seq<Category>): (ms: seq<Match>)
    ensures forall i :: 0 <= i < |ms| ==>
              ms[i].score > 0 && ms[i].score == Relevance(ql, Entry(ms[i].question, ms[i].answer))
    decreases |cs|
  {
    if |cs| == 0 then [] else EntryMatches(ql, cs[0].name, cs[0].questions) + Matches(ql, cs[1..])
  }

  function Pairs(ms: seq<Match>): (es: seq<Entry>)
    ensures |es| == |ms|
    ensures forall i :: 0 <= i < |ms| ==> es[i] == Entry(ms[i].question, ms[i].answer)
  {
    seq(|ms|, i requires 0 <= i < |ms| => Entry(ms[i].question, ms[i].answer))
  }

  lemma PairsAppend(a: seq<Match>, b: seq<Match>)
    ensures Pairs(a + b) == Pairs(a) + Pairs(b)
  {
  }

  lemma {:induction false} EntryMatchesPairs(ql: string, name: string, es: seq<Entry>)
    ensures Pairs(EntryMatches(ql, name, es)) == Relevant(ql, es)
    decreases |es|
  {
    if |es| > 0 {
      var s := Relevance(ql, es[0]);
      var head: seq<Match> := if s > 0 then [Match(es[0].question, es[0].answer, name, s)] else [];
      EntryMatchesPairs(ql, name, es[1..]);
      PairsAppend(head, EntryMatches(ql, name, es[1..]));
      assert Pairs(head) == (if s > 0 then [es[0]] else []);
    }
  }

  /** The matches are exactly the relevant entries of the flattened corpus,
      in corpus order. */
  lemma {:induction false} MatchesAreRelevantEntries(ql: string, cs: seq<Category>)
    ensures Pairs(Matches(ql, cs)) == Relevant(ql, Flatten(cs))
    decreases |cs|
  {
    if |cs| > 0 {
      MatchesAreRelevantEntries(ql, cs[1..]);
      EntryMatchesPairs(ql, cs[0].name, cs[0].questions);
      RelevantAppend(ql, cs[0].questions, Flatten(cs[1..]));
      PairsAppend(EntryMatches(ql, cs[0].name, cs[0].questions), Matches(ql, cs[1..]));
    }
  }

  predicate SortedByScore(ms: seq<Match>) {
    forall i, j :: 0 <= i < j < |ms| ==> ms[i].score >= ms[j].score
  }

  /** The matches with score `v`, in order. */
  function WithScore(ms: seq<Match>, v: int): seq<Match>
    decreases |ms|
  {
    if |ms| == 0 then []
    else (if ms[0].score == v then [ms[0]] else []) + WithScore(ms[1..], v)
  }

  /** A match scoring at least every element of a sorted list can go in
      front of it. */
  lemma ConsSorted(x: Match, rest: seq<Match>)
    requires SortedByScore(rest)
    requires forall y :: y in multiset(rest) ==> y.score <= x.score
    ensures SortedByScore([x] + rest)
  {
    var r := [x] + rest;
    forall i, j | 0 <= i < j < |r| ensures r[i].score >= r[j].score {
      assert r[j] == rest[j - 1] && rest[j - 1] in multiset(rest);
      if i > 0 {
        assert r[i] == rest[i - 1];
      }
    }
  }

  /** Inserts `m` into a list sorted by non-increasing score, ahead of every
      match with an equal score. */
  function Insert(m: Match, ms: seq<Match>): (r: seq<Match>)
    requires SortedByScore(ms)
    ensures SortedByScore(r)
    ensures multiset(r) == multiset(ms) + multiset{m}
    decreases |ms|
  {
    if |ms| == 0 || m.score >= ms[0].score then
      assert SortedByScore([m] + ms) by {
        ConsSorted(m, ms);
      }
      [m] + ms
    else
      var rest := Insert(m, ms[1..]);
      assert SortedByScore([ms[0]] + rest) by {
        forall y | y in multiset(rest) ensures y.score <= ms[0].score {
          if y != m {
            assert y in multiset(ms[1..]);
            var k :| 0 <= k < |ms[1..]| && ms[1..][k] == y;
            assert ms[k + 1] == y;
          }
        }
        ConsSorted(ms[0], rest);
      }
      assert multiset([ms[0]] + rest) == multiset(ms) + multiset{m} by {
        assert ms == [ms[0]] + ms[1..];
      }
      [ms[0]] + rest
  }

  /** Among the matches of one score, `Insert` puts `m` first and keeps the
      order of the others. */
  lemma {:induction false} InsertWithScore(m: Match, ms: seq<Match>, v: int)
    requires SortedByScore(ms)
    ensures WithScore(Insert(m, ms), v)
            == if v == m.score then [m] + WithScore(ms, v) else WithScore(ms, v)
    decreases |ms|
  {
    if |ms| == 0 || m.score >= ms[0].score {
      assert ([m] + ms)[1..] == ms;
    } else {
      InsertWithScore(m, ms[1..], v);
      var rest := Insert(m, ms[1..]);
      assert ([ms[0]] + rest)[1..] == rest;
    }
  }

  /** Python's `sort(key=score, reverse=True)`: sorted by non-increasing
      score. */
  function SortByScore(ms: seq<Match>): (r: seq<Match>)
    ensures SortedByScore(r)
    ensures multiset(r) == multiset(ms)
    decreases |ms|
  {
    if |ms| == 0 then []
    else
      assert ms == [ms[0]] + ms[1..];
      Insert(ms[0], SortByScore(ms[1..]))
  }

  /** The sort is stable: the matches of each score keep their order. */
  lemma {:induction false} SortStable(ms: seq<Match>, v: int)
    ensures WithScore(SortByScore(ms), v) == WithScore(ms, v)
    decreases |ms|
  {
    if |ms| > 0 {
      SortStable(ms[1..], v);
      InsertWithScore(ms[0], SortByScore(ms[1..]), v);
    }
  }

  /** A permutation of matches scored 1, 3 or 4 is scored 1, 3 or 4. */
  lemma PermutationKeepsScores(ms: seq<Match>, r: seq<Match>)
    requires multiset(r) == multiset(ms)
    requires forall i :: 0 <= i < |ms| ==> ms[i].score in {1, 3, 4}
    ensures forall i :: 0 <= i < |r| ==> r[i].score in {1, 3, 4}
  {
    forall i | 0 <= i < |r| ensures r[i].score in {1, 3, 4} {
      assert r[i] in multiset(ms);
      var j :| 0 <= j < |ms| && ms[j] == r[i];
    }
  }

  /** `search_questions(query)`: every entry whose lower-cased question or
      answer contains the lower-cased query, ordered by non-increasing
      relevance; among equal relevance the corpus order is kept. */
  function SearchQuestions(doc: Document, query: string): (r: seq<Match>)
    ensures SortedByScore(r)
    ensures forall i :: 0 <= i < |r| ==> r[i].score in {1, 3, 4}
    ensures multiset(r) == multiset(Matches(Lower(query), Categories(doc)))
    ensures forall v :: WithScore(r, v) == WithScore(Matches(Lower(query), Categories(doc)), v)
  {
    var ms := Matches(Lower(query), Categories(doc));
    var r := SortByScore(ms);
    assert forall i :: 0 <= i < |r| ==> r[i].score in {1, 3, 4} by {
      assert forall i :: 0 <= i < |ms| ==> ms[i].score in {1, 3, 4};
      PermutationKeepsScores(ms, r);
    }
    assert forall v :: WithScore(r, v) == WithScore(ms, v) by {
      forall v ensures WithScore(r, v) == WithScore(ms, v) {
        SortStable(ms, v);
      }
    }
    r
  }

  /** The empty query occurs in every question, so every entry matches with
      score 4 and the stable sort leaves them in corpus order: the search
      returns every entry, in order. */
  lemma EmptyQueryMatchesAll(doc: Document)
    ensures Pairs(SearchQuestions(doc, "")) == AllEntries(doc)
  {
    var cs := Categories(doc);
    forall e: Entry ensures Relevance("", e) == 4 {
      ContainsEmpty(Lower(e.question), "");
      ContainsEmpty(Lower(e.answer), "");
    }
    assert Lower("") == "";
    var ms := Matches("", cs);
    var r := SearchQuestions(doc, "");
    forall i | 0 <= i < |r| ensures r[i].score == 4 {
      assert r[i] in multiset(ms);
      var j :| 0 <= j < |ms| && ms[j] == r[i];
    }
    WithScoreAll(ms, 4);
    WithScoreAll(r, 4);
    RelevantAll(Flatten(cs));
    MatchesAreRelevantEntries("", cs);
  }

  /** When every match has score `v`, selecting score `v` keeps them all. */
  lemma {:induction false} WithScoreAll(ms: seq<Match>, v: int)
    requires forall i :: 0 <= i < |ms| ==> ms[i].score == v
    ensures WithScore(ms, v) == ms
    decreases |ms|
  {
    if |ms| > 0 {
      assert forall i :: 0 <= i < |ms| - 1 ==> ms[1..][i] == ms[i + 1];
      WithScoreAll(ms[1..], v);
      assert ms == [ms[0]] + ms[1..];
    }
  }

  lemma {:induction false} RelevantAll(es: seq<Entry>)
    requires forall e: Entry :: Relevance("", e) == 4
    ensures Relevant("", es) == es
    decreases |es|
  {
    if |es| > 0 {
      RelevantAll(es[1..]);
      assert es == [es[0]] + es[1..];
    }
  }

  // ------------------------------------------------------------------ add

  datatype Added = Added(doc: Document, ok: bool)

  /** `cs'` is `cs` with entry `e` appended to the category `key`, the
      category being created at the end, named `Title(key)`, when absent. */
  predicate AppendedTo(cs: seq<Category>, cs': seq<Category>, key: string, e: Entry) {
    match IndexOfKey(cs, key)
    case None => cs' == cs + [Category(key, Title(key), [e])]
    case Some(t) =>
      && |cs'| == |cs|
      && cs'[t] == cs[t].(questions := cs[t].questions + [e])
      && forall i :: 0 <= i < |cs| && i != t ==> cs'[i] == cs[i]
  }

  /** `add_question(category, question, answer)`. The append happens in
      memory before the metadata is touched, so a document without
      metadata keeps the new entry yet reports failure. Saving to disk
      swallows its own errors, so it never turns success into failure. */
  function AddQuestion(doc: Document, key: string, question: string, answer: string): (r: Added)
    ensures r.ok <==> doc.categories.Some? && doc.metadata.Some?
    ensures doc.categories.None? ==> r.doc == doc
    ensures doc.categories.Some? ==>
              r.doc.categories.Some?
              && AppendedTo(doc.categories.value, r.doc.categories.value, key, Entry(question, answer))
    ensures r.ok ==> r.doc.metadata == Some(doc.metadata.value.(totalQuestions := doc.metadata.value.totalQuestions + 1))
    ensures !r.ok ==> r.doc.metadata == doc.metadata
  {
    match doc.categories
    case None => Added(doc, false)
    case Some(cs) =>
      var e := Entry(question, answer);
      var cs' := match IndexOfKey(cs, key)
                 case None => cs + [Category(key, Title(key), [e])]
                 case Some(t) => cs[t := cs[t].(questions := cs[t].questions + [e])];
      match doc.metadata
      case None => Added(Document(Some(cs'), None), false)
      case Some(m) => Added(Document(Some(cs'), Some(m.(totalQuestions := m.totalQuestions + 1))), true)
  }

  /** The flattened corpus around category `t`. */
  lemma FlattenAround(cs: seq<Category>, t: nat)
    requires t < |cs|
    ensures Flatten(cs) == Flatten(cs[..t]) + cs[t].questions + Flatten(cs[t + 1..])
  {
    assert cs == cs[..t] + cs[t..];
    FlattenAppend(cs[..t], cs[t..]);
    assert cs[t..][1..] == cs[t + 1..];
  }

  /** After an add, the flattened corpus holds one more entry, and a
      successful add keeps the advisory count consistent. */
  lemma AddQuestionCount(doc: Document, key: string, question: string, answer: string)
    requires doc.categories.Some?
    ensures |AllEntries(AddQuestion(doc, key, question, answer).doc)| == |AllEntries(doc)| + 1
    ensures Consistent(doc) ==> Consistent(AddQuestion(doc, key, question, answer).doc)
  {
    var cs := doc.categories.value;
    var cs' := AddQuestion(doc, key, question, answer).doc.categories.value;
    var e := Entry(question, answer);
    match IndexOfKey(cs, key)
    case None =>
      FlattenAppend(cs, [Category(key, Title(key), [e])]);
    case Some(t) =>
      FlattenAround(cs, t);
      FlattenAround(cs', t);
      assert cs'[..t] == cs[..t];
      assert cs'[t + 1..] == cs[t + 1..];
  }

  /** The category list after an add: unchanged when the key existed, the
      key appended last when it did not. */
  lemma AddQuestionKeys(doc: Document, key: string, question: string, answer: string)
    requires doc.categories.Some?
    ensures GetCategories(AddQuestion(doc, key, question, answer).doc)
            == GetCategories(doc) + (if key in GetCategories(doc) then [] else [key])
  {
  }

  /** Adding keeps the category keys distinct. */
  lemma AddQuestionDistinct(doc: Document, key: string, question: string, answer: string)
    requires DistinctKeys(Categories(doc))
    ensures DistinctKeys(Categories(AddQuestion(doc, key, question, answer).doc))
  {
    if doc.categories.Some? {
      AddQuestionKeys(doc, key, question, answer);
    }
  }

  /** When the entry lands in the last category (or a new one), the old
      flattened corpus is a prefix of the new one, so cached embedding
      indices still name the same entries. */
  lemma AddAtEndKeepsIndices(doc: Document, key: string, question: string, answer: string)
    requires doc.categories.Some?
    requires IndexOfKey(doc.categories.value, key) in {None, Some(|doc.categories.value| - 1)}
    ensures AllEntries(doc) <= AllEntries(AddQuestion(doc, key, question, answer).doc)
  {
    var cs := doc.categories.value;
    var cs' := AddQuestion(doc, key, question, answer).doc.categories.value;
    var e := Entry(question, answer);
    match IndexOfKey(cs, key)
    case None =>
      FlattenAppend(cs, [Category(key, Title(key), [e])]);
    case Some(t) =>
      assert cs == cs[..t] + [cs[t]];
      assert cs' == cs[..t] + [cs'[t]];
      FlattenAppend(cs[..t], [cs[t]]);
      FlattenAppend(cs[..t], [cs'[t]]);
      assert Flatten([cs[t]]) == cs[t].questions;
      assert Flatten([cs'[t]]) == cs[t].questions + [e];
  }

  // -------------------------------------------------------------- default

  const DefaultVersion := "1.0"

  // The texts of the built-in corpus, one constant each.
  const CapabilitiesQuestion := "What can this photo assistant do?"
  const CapabilitiesAnswer :=
    "This photo assistant can analyze images to detect objects, extract text, identify scenes, and answer questions about photos using AI-powered vision and language models."
  const UploadQuestion := "How do I upload a photo?"
  const UploadAnswer :=
    "You can upload photos through the web interface by clicking the upload button and selecting an image file from your device."
  const FormatsQuestion := "What file formats are supported?"
  const FormatsAnswer :=
    "The assistant supports common image formats including JPEG, PNG, GIF, and WebP files."
  const ExtractionQuestion := "What information can you extract from photos?"
  const ExtractionAnswer :=
    "I can detect objects, recognize text (OCR), identify scenes and concepts, detect faces, and provide detailed descriptions of image content."
  const AccuracyQuestion := "How accurate is the analysis?"
  const AccuracyAnswer :=
    "The analysis uses state-of-the-art AI models with high accuracy, though results may vary depending on image quality and content complexity."
  const ReadingQuestion := "Can you read text in images?"
  const ReadingAnswer :=
    "Yes, I can extract and read text from images using optical character recognition (OCR) technology."
  const AskingQuestion := "How do I ask questions about my photos?"
  const AskingAnswer :=
    "After uploading a photo, you can type questions in the chat interface. Ask about objects, colors, text, or any other aspects of the image."
  const BestQuestionsQuestion := "What types of questions work best?"
  const BestQuestionsAnswer :=
    "Specific questions work best, such as 'What objects do you see?', 'Is there text in this image?', or 'Describe the colors in this photo.'"
  const ComparingQuestion := "Can you compare multiple photos?"
  const ComparingAnswer :=
    "Currently, the assistant analyzes one photo at a time. You can upload different photos sequentially for comparison."

  /** The built-in corpus used when no readable file exists. */
  function DefaultDocument(): Document {
    Document(Some([
      Category("general", "General Questions",
        [Entry(CapabilitiesQuestion, CapabilitiesAnswer), Entry(UploadQuestion, UploadAnswer), Entry(FormatsQuestion, FormatsAnswer)]),
      Category("analysis", "Photo Analysis",
        [Entry(ExtractionQuestion, ExtractionAnswer), Entry(AccuracyQuestion, AccuracyAnswer), Entry(ReadingQuestion, ReadingAnswer)]),
      Category("usage", "Usage Tips",
        [Entry(AskingQuestion, AskingAnswer), Entry(BestQuestionsQuestion, BestQuestionsAnswer), Entry(ComparingQuestion, ComparingAnswer)])]),
      Some(Metadata(DefaultVersion, "2024-01-01", 9)))
  }

  /** The default corpus has three categories with distinct keys and nine
      entries, and its advisory count says nine. */
  lemma DefaultShape()
    ensures |Categories(DefaultDocument())| == 3 && DistinctKeys(Categories(DefaultDocument()))
    ensures |AllEntries(DefaultDocument())| == 9 && Consistent(DefaultDocument())
  {
    var cs := Categories(DefaultDocument());
    assert CountEntries(cs[2..]) == 3;
    assert CountEntries(cs[1..]) == 6;
    assert CountEntries(cs) == 9;
    FlattenLength(cs);
  }

  /** What the corpus file held: nothing, something unreadable or not JSON,
      or a parsed document. */
  datatype Stored = Missing | Unreadable | Parsed(doc: Document)

  /** `_load_faq_data()`: the parsed document, or the built-in default when
      the file is missing or cannot be read. */
  function Load(s: Stored): (d: Document)
    ensures s.Parsed? ==> d == s.doc
    ensures !s.Parsed? ==> d == DefaultDocument() && Consistent(d)
  {
    DefaultShape();
    match s
    case Parsed(doc) => doc
    case _ => DefaultDocument()
  }

  /** Appending to a category other than the last shifts the flattened
      positions of every later entry: on the default corpus, a question
      added under "general" takes position 3, where the cached embeddings
      still expect the first "analysis" entry. */
  lemma AddShiftsLaterIndices(question: string, answer: string)
    ensures AllEntries(AddQuestion(DefaultDocument(), "general", question, answer).doc)[3]
            == Entry(question, answer)
    ensures AllEntries(DefaultDocument())[3].question == ExtractionQuestion
  {
    var d := DefaultDocument();
    var cs := d.categories.value;
    var cs' := AddQuestion(d, "general", question, answer).doc.categories.value;
    assert IndexOfKey(cs, "general") == Some(0);
    assert |cs'[0].questions| == 4;
    FlattenIndex(cs', 0, 3);
    FlattenIndex(cs, 1, 0);
    assert cs[..1] == [cs[0]];
    assert cs'[..0] == [];
  }
}

=== FILE: engine.dfy ===
/** The FAQ handler's query side: the single best answer and the top-k
    shortlist, computed from the similarity scores the sentence-embedding
    model supplies. The model, the cosine similarities and the choices of
    `torch.argmax` and `torch.topk` are inputs here, not computed. */
module Engine {
  import opened Wrappers
  import opened Text
  import opened Corpus
  import opened Lexical

  /** A best similarity at or above this makes its entry the answer. */
  const Threshold: real := 0.3

  /** The handler: the corpus, whether the sentence model loaded, and the
      questions whose embeddings are cached (absent when encoding failed).
      The cache is built once and never refreshed by an add. */
  datatype Handler = Handler(doc: Document, modelLoaded: bool, cached: Option<seq<string>>)

  function Questions(es: seq<Entry>): (qs: seq<string>)
    ensures |qs| == |es|
    ensures forall i :: 0 <= i < |es| ==> qs[i] == es[i].question
  {
    seq(|es|, i requires 0 <= i < |es| => es[i].question)
  }

  /** The handler keeps at most as many cached embeddings as entries: the
      corpus only grows after the cache is built. */
  predicate CacheFits(h: Handler) {
    h.cached.Some? ==> |h.cached.value| <= |AllEntries(h.doc)|
  }

  /** Construction: load the corpus, then, if the model loaded, embed every
      question (`encodes` says whether that succeeded). */
  function NewHandler(stored: Stored, modelLoads: bool, encodes: bool): (h: Handler)
    ensures h.doc == Load(stored) && h.modelLoaded == modelLoads
    ensures h.cached.Some? <==> modelLoads && encodes
    ensures h.cached.Some? ==> h.cached.value == Questions(AllEntries(h.doc))
    ensures CacheFits(h)
  {
    var doc := Load(stored);
    Handler(doc, modelLoads, if modelLoads && encodes then Some(Questions(AllEntries(doc))) else None)
  }

  /** `add_question` on the handler: the corpus changes, the cache does not. */
  function Add(h: Handler, key: string, question: string, answer: string): (r: (Handler, bool))
    ensures r.0.modelLoaded == h.modelLoaded && r.0.cached == h.cached
    ensures CacheFits(h) ==> CacheFits(r.0)
  {
    var added := AddQuestion(h.doc, key, question, answer);
    assert |AllEntries(added.doc)| >= |AllEntries(h.doc)| by {
      if h.doc.categories.Some? {
        AddQuestionCount(h.doc, key, question, answer);
      }
    }
    (h.(doc := added.doc), added.ok)
  }

  // ---------------------------------------------------------- best answer

  /** What the model produced for one query: the similarity of each cached
      question and the index `torch.argmax` chose, or an error. */
  datatype Ranking = RankingFailed | Ranked(similarities: seq<real>, best: int)

  /** The model path applies: the model loaded, the cache exists, the
      ranking succeeded and its best index lies within both the
      similarities and the current corpus. */
  predicate ModelPath(h: Handler, ranking: Ranking) {
    && h.modelLoaded && h.cached.Some? && ranking.Ranked?
    && 0 <= ranking.best < |ranking.similarities|
    && ranking.best < |AllEntries(h.doc)|
  }

  /** `answer_question(question)`: on the model path, the answer of the best
      entry when its similarity reaches the threshold and the fixed message
      otherwise; in every other case (no model, no cache, a raised error, a
      best index outside the corpus) the lexical fallback. */
  function AnswerQuestion(h: Handler, query: string, ranking: Ranking): (r: string)
    ensures !ModelPath(h, ranking) ==> r == FallbackAnswer(h.doc, query)
    ensures ModelPath(h, ranking) && ranking.similarities[ranking.best] < Threshold
            ==> r == NoAnswerMessage
    ensures ModelPath(h, ranking) && ranking.similarities[ranking.best] >= Threshold
            ==> r == AllEntries(h.doc)[ranking.best].answer
  {
    if !h.modelLoaded || h.cached.None? then FallbackAnswer(h.doc, query)
    else
      match ranking
      case RankingFailed => FallbackAnswer(h.doc, query)
      case Ranked(sims, best) =>
        var es := AllEntries(h.doc);
        if !(0 <= best < |sims|) then FallbackAnswer(h.doc, query)
        else if best < |es| then
          (if sims[best] < Threshold then NoAnswerMessage else es[best].answer)
        else FallbackAnswer(h.doc, query)
  }

  /** Whatever path is taken, the reply is the fixed message or the stored
      answer of some entry: the handler never invents text. */
  lemma AnswerIsStoredOrMessage(h: Handler, query: string, ranking: Ranking)
    ensures var r := AnswerQuestion(h, query, ranking);
            r == NoAnswerMessage
            || exists i :: 0 <= i < |AllEntries(h.doc)| && r == AllEntries(h.doc)[i].answer
  {
  }

  /** The reply is empty only when the chosen stored answer is: with no empty
      answer in the corpus, every reply is usable text. */
  lemma AnswerNonEmpty(h: Handler, query: string, ranking: Ranking)
    requires forall i :: 0 <= i < |AllEntries(h.doc)| ==> AllEntries(h.doc)[i].answer != ""
    ensures AnswerQuestion(h, query, ranking) != ""
  {
    AnswerIsStoredOrMessage(h, query, ranking);
  }

  /** An add to the last category (or a new one) leaves every cached index
      naming the same entry, so the answer for a ranking over the old cache
      is unchanged. */
  lemma AnswerStableAfterAddAtEnd(h: Handler, key: string, question: string, answer: string,
                                  query: string, ranking: Ranking)
    requires h.doc.categories.Some?
    requires IndexOfKey(h.doc.categories.value, key) in {None, Some(|h.doc.categories.value| - 1)}
    requires ModelPath(h, ranking)
    ensures AnswerQuestion(Add(h, key, question, answer).0, query, ranking)
            == AnswerQuestion(h, query, ranking)
  {
    AddAtEndKeepsIndices(h.doc, key, question, answer);
    AddQuestionCount(h.doc, key, question, answer);
  }

  // ------------------------------------------------------------- shortlist

  /** What the model produced for a shortlist: the similarities and the
      positions `torch.topk` chose, or an error. */
  datatype TopK = TopKFailed | TopK(similarities: seq<real>, indices: seq<int>)

  datatype Similar = Similar(question: string, answer: string, score: real)

  /** The promise of `torch.topk(similarities, n)`: `n` distinct positions
      of the similarities, in non-increasing order of similarity, and no
      position left out holds a larger similarity than the last one chosen. */
  predicate IsTopK(sims: seq<real>, n: int, indices: seq<int>) {
    && |indices| == n
    && (forall j :: 0 <= j < |indices| ==> 0 <= indices[j] < |sims|)
    && (forall j1, j2 :: 0 <= j1 < j2 < |indices| ==> indices[j1] != indices[j2])
    && (forall j1, j2 :: 0 <= j1 < j2 < |indices| ==> sims[indices[j1]] >= sims[indices[j2]])
    && (|indices| > 0 ==> forall j :: 0 <= j < |sims| && j !in indices ==> sims[j] <= sims[indices[|indices| - 1]])
  }

  predicate NonIncreasing(rs: seq<Similar>) {
    forall j1, j2 :: 0 <= j1 < j2 < |rs| ==> rs[j1].score >= rs[j2].score
  }

  /** `s` is the triple of the entry at position `i`, scored with the
      similarity at the same position. */
  predicate Describes(s: Similar, es: seq<Entry>, sims: seq<real>, i: int) {
    0 <= i < |es| && i < |sims| && s == Similar(es[i].question, es[i].answer, sims[i])
  }

  /** The loop over the chosen positions: a position inside the corpus
      contributes its question, answer and similarity; one outside the
      corpus is skipped; one inside the corpus but outside the similarities
      raises, which the caller turns into an empty list (`None` here). */
  function Collect(indices: seq<int>, sims: seq<real>, es: seq<Entry>): (r: Option<seq<Similar>>)
    ensures r.None? <==> exists i :: i in indices && 0 <= i < |es| && i >= |sims|
    ensures r.Some? ==> |r.value| <= |indices|
    ensures r.Some? && (forall i :: i in indices ==> 0 <= i < |es|) ==> |r.value| == |indices|
    ensures r.Some? ==> forall m :: 0 <= m < |r.value| ==>
              exists i :: i in indices && Describes(r.value[m], es, sims, i)
    ensures r.Some? && (forall i :: i in indices ==> 0 <= i < |es|) ==>
              forall m :: 0 <= m < |indices| ==> Describes(r.value[m], es, sims, indices[m])
    decreases |indices|
  {
    if |indices| == 0 then Some([])
    else
      var i := indices[0];
      var rest := Collect(indices[1..], sims, es);
      assert forall x :: x in indices <==> x == i || x in indices[1..];
      assert i in indices;
      if 0 <= i < |es| then
        if i < |sims| then
          match rest
          case None => None
          case Some(rs) =>
            var out := [Similar(es[i].question, es[i].answer, sims[i])] + rs;
            CollectCons(indices, sims, es, rs);
            Some(out)
        else None
      else rest
  }

  /** The step of `Collect` that keeps a position: what holds of the
      triples for the later positions holds, with the new triple in front,
      for all of them. */
  lemma CollectCons(indices: seq<int>, sims: seq<real>, es: seq<Entry>, rs: seq<Similar>)
    requires |indices| > 0 && 0 <= indices[0] < |es| && indices[0] < |sims|
    requires forall m :: 0 <= m < |rs| ==> exists x :: x in indices[1..] && Describes(rs[m], es, sims, x)
    requires (forall x :: x in indices[1..] ==> 0 <= x < |es|) ==>
               |rs| == |indices| - 1 && forall m :: 0 <= m < |rs| ==> Describes(rs[m], es, sims, indices[1..][m])
    ensures var out := [Similar(es[indices[0]].question, es[indices[0]].answer, sims[indices[0]])] + rs;
            forall m :: 0 <= m < |out| ==> exists x :: x in indices && Describes(out[m], es, sims, x)
    ensures var out := [Similar(es[indices[0]].question, es[indices[0]].answer, sims[indices[0]])] + rs;
            (forall x :: x in indices ==> 0 <= x < |es|) ==>
              |out| == |indices| && forall m :: 0 <= m < |indices| ==> Describes(out[m], es, sims, indices[m])
  {
    var i := indices[0];
    var out := [Similar(es[i].question, es[i].answer, sims[i])] + rs;
    assert forall x :: x in indices[1..] ==> x in indices;
    forall m | 0 <= m < |out|
      ensures exists x :: x in indices && Describes(out[m], es, sims, x)
    {
      if m == 0 {
        assert Describes(out[0], es, sims, i);
      } else {
        assert out[m] == rs[m - 1];
        var x :| x in indices[1..] && Describes(rs[m - 1], es, sims, x);
      }
    }
    if forall x :: x in indices ==> 0 <= x < |es| {
      forall m | 0 <= m < |indices|
        ensures Describes(out[m], es, sims, indices[m])
      {
        if m > 0 {
          assert out[m] == rs[m - 1];
          assert indices[m] == indices[1..][m - 1];
        }
      }
    }
  }

  /** Every collected score is the similarity of a chosen position, so a
      bound on those similarities bounds the scores. */
  lemma {:induction false} CollectBounded(indices: seq<int>, sims: seq<real>, es: seq<Entry>, b: real)
    requires forall j :: 0 <= j < |indices| ==> 0 <= indices[j] < |sims| && sims[indices[j]] <= b
    ensures Collect(indices, sims, es).Some?
    ensures forall m :: 0 <= m < |Collect(indices, sims, es).value| ==>
              Collect(indices, sims, es).value[m].score <= b
    decreases |indices|
  {
    if |indices| > 0 {
      CollectBounded(indices[1..], sims, es, b);
    }
  }

  /** When the chosen positions come in non-increasing order of similarity,
      so do the collected triples. */
  lemma {:induction false} CollectOrdered(indices: seq<int>, sims: seq<real>, es: seq<Entry>)
    requires forall j :: 0 <= j < |indices| ==> 0 <= indices[j] < |sims|
    requires forall j1, j2 :: 0 <= j1 < j2 < |indices| ==> sims[indices[j1]] >= sims[indices[j2]]
    ensures Collect(indices, sims, es).Some?
    ensures NonIncreasing(Collect(indices, sims, es).value)
    decreases |indices|
  {
    if |indices| > 0 {
      var i, tail := indices[0], indices[1..];
      CollectOrdered(tail, sims, es);
      assert forall j :: 0 <= j < |tail| ==> tail[j] == indices[j + 1];
      CollectBounded(tail, sims, es, sims[i]);
      var rs := Collect(tail, sims, es).value;
      if 0 <= i < |es| {
        var x := Similar(es[i].question, es[i].answer, sims[i]);
        assert Collect(indices, sims, es) == Some([x] + rs);
        ConsNonIncreasing(x, rs);
      } else {
        assert Collect(indices, sims, es) == Some(rs);
      }
    }
  }

  lemma ConsNonIncreasing(x: Similar, rs: seq<Similar>)
    requires NonIncreasing(rs)
    requires forall m :: 0 <= m < |rs| ==> rs[m].score <= x.score
    ensures NonIncreasing([x] + rs)
  {
    var r := [x] + rs;
    assert forall m :: 1 <= m < |r| ==> r[m] == rs[m - 1];
  }

  /** The shortlist length callers get when they pass no `top_k`. */
  const DefaultTopK: nat := 3

  /** `get_similar_questions(question, top_k)`: empty without the model or
      the cache, on a raised error, and when `min(top_k, N)` is negative
      (`torch.topk` rejects it); otherwise the collected triples. */
  function GetSimilarQuestions(h: Handler, query: string, k: int, ranking: TopK): (r: seq<Similar>)
    ensures !h.modelLoaded || h.cached.None? || ranking.TopKFailed? ==> r == []
    ensures ranking.TopK? ==> |r| <= |ranking.indices|
    ensures ranking.TopK? && Min(k, |ranking.similarities|) < 0 ==> r == []
    ensures forall m :: 0 <= m < |r| ==>
              exists i :: i in ranking.indices && Describes(r[m], AllEntries(h.doc), ranking.similarities, i)
    ensures h.modelLoaded && h.cached.Some? && ranking.TopK? && Min(k, |ranking.similarities|) >= 0
            && (forall j :: 0 <= j < |ranking.indices| ==>
                  0 <= ranking.indices[j] < |ranking.similarities| && ranking.indices[j] < |AllEntries(h.doc)|)
            ==> |r| == |ranking.indices|
                && forall m :: 0 <= m < |r| ==>
                     Describes(r[m], AllEntries(h.doc), ranking.similarities, ranking.indices[m])
  {
    if !h.modelLoaded || h.cached.None? then []
    else
      match ranking
      case TopKFailed => []
      case TopK(sims, indices) =>
        if Min(k, |sims|) < 0 then []
        else
          match Collect(indices, sims, AllEntries(h.doc))
          case None => []
          case Some(rs) => rs
  }

  /** Given positions that honour the `torch.topk` promise for
      `min(top_k, N)` and a similarity per cached question, the shortlist
      holds exactly `min(top_k, N)` triples in non-increasing order of
      score, the m-th describing the entry at the m-th chosen position with
      its similarity; no entry left out is more similar than any entry
      chosen. */
  lemma ShortlistIsTopK(h: Handler, query: string, k: int, sims: seq<real>, indices: seq<int>)
    requires h.modelLoaded && h.cached.Some? && CacheFits(h)
    requires |sims| == |h.cached.value| && k >= 0
    requires IsTopK(sims, Min(k, |sims|), indices)
    ensures var r := GetSimilarQuestions(h, query, k, TopK(sims, indices));
            |r| == Min(k, |sims|) && NonIncreasing(r)
    ensures var r := GetSimilarQuestions(h, query, k, TopK(sims, indices));
            forall m :: 0 <= m < |r| ==> Describes(r[m], AllEntries(h.doc), sims, indices[m])
    ensures var r := GetSimilarQuestions(h, query, k, TopK(sims, indices));
            forall m, j :: 0 <= m < |r| && 0 <= j < |sims| && j !in indices ==> sims[j] <= r[m].score
  {
    CollectOrdered(indices, sims, AllEntries(h.doc));
    var r := GetSimilarQuestions(h, query, k, TopK(sims, indices));
    LeftOutNotHigher(sims, Min(k, |sims|), indices);
    forall m, j | 0 <= m < |r| && 0 <= j < |sims| && j !in indices
      ensures sims[j] <= r[m].score
    {
      assert r[m].score == sims[indices[m]];
    }
  }

  /** A position `topk` left out is no more similar than any it chose. */
  lemma LeftOutNotHigher(sims: seq<real>, n: int, indices: seq<int>)
    requires IsTopK(sims, n, indices)
    ensures forall m, j :: 0 <= m < |indices| && 0 <= j < |sims| && j !in indices ==> sims[j] <= sims[indices[m]]
  {
    forall m, j | 0 <= m < |indices| && 0 <= j < |sims| && j !in indices
      ensures sims[j] <= sims[indices[m]]
    {
      var last := |indices| - 1;
      assert sims[j] <= sims[indices[last]];
      assert m < last ==> sims[indices[m]] >= sims[indices[last]];
    }
  }

  /** Without the model the shortlist is always empty: the lexical fallback
      offers no ranked list. */
  lemma NoModelNoShortlist(h: Handler, query: string, k: int, ranking: TopK)
    requires !h.modelLoaded
    ensures GetSimilarQuestions(h, query, k, ranking) == []
  {
  }
}

=== FILE: lexical.dfy ===
/** The deterministic fallback matcher: scores every entry by word overlap
    with the query and answers with the best entry above a fixed cut-off. */
module Lexical {
  import opened Wrappers
  import opened Text
  import opened Corpus

  /** The fixed reply when no entry is good enough. */
  const NoAnswerMessage := "I couldn't find a specific answer to your question. Please try rephrasing or check the FAQ section for similar topics."

  /** The winning score must exceed this. */
  const Cutoff: real := 0.2

  /** `set(s.split())`. */
  function WordSet(s: string): set<string> {
    set w | w in Words(s)
  }

  /** Some word of `words` occurs as a substring of `text`. */
  predicate AnyWordIn(words: seq<string>, text: string) {
    exists i :: 0 <= i < |words| && Contains(text, words[i])
  }

  lemma SubsetCard<T>(a: set<T>, b: set<T>)
    requires a <= b
    ensures |a| <= |b|
    decreases a
  {
    if a != {} {
      var x :| x in a;
      SubsetCard(a - {x}, b - {x});
    }
  }

  lemma RatioAtMostOne(a: real, b: real)
    requires 0.0 <= a <= b && b > 0.0
    ensures 0.0 <= a / b <= 1.0
  {
    assert a / b * b == a;
  }

  /** The share of common words: `|common| / max(|query words|, |question
      words|)`, and 0 when nothing is shared (so nothing divides by zero). */
  function Overlap(ql: string, fq: string): (r: real)
    ensures 0.0 <= r <= 1.0
    ensures r > 0.0 <==> WordSet(ql) * WordSet(fq) != {}
  {
    var qw := WordSet(ql);
    var fw := WordSet(fq);
    var common := qw * fw;
    if |common| > 0 then
      SubsetCard(common, qw);
      RatioAtMostOne(|common| as real, Max(|qw|, |fw|) as real);
      (|common| as real) / (Max(|qw|, |fw|) as real)
    else 0.0
  }

  /** The fallback score of an entry against the lower-cased query `ql`:
      the word overlap with its question, plus 0.5 when a word of its
      question occurs in the query, plus 0.3 when a word of its answer does. */
  function LexicalScore(ql: string, e: Entry): (score: real)
    ensures 0.0 <= score <= 1.8
  {
    Overlap(ql, Lower(e.question))
    + (if AnyWordIn(Words(Lower(e.question)), ql) then 0.5 else 0.0)
    + (if AnyWordIn(Words(Lower(e.answer)), ql) then 0.3 else 0.0)
  }

  /** A shared word is itself a word of the question occurring in the query,
      so overlap never comes without the 0.5 bonus. Hence a score is either
      0, 0.3 or at least 0.5, and it clears the 0.2 cut-off exactly when a
      word of the question or of the answer occurs in the query. */
  lemma ScoreAboveCutoff(ql: string, e: Entry)
    ensures LexicalScore(ql, e) >= 0.5 <==> AnyWordIn(Words(Lower(e.question)), ql)
    ensures LexicalScore(ql, e) > Cutoff <==> LexicalScore(ql, e) > 0.0
    ensures LexicalScore(ql, e) > 0.0 <==>
              AnyWordIn(Words(Lower(e.question)), ql) || AnyWordIn(Words(Lower(e.answer)), ql)
  {
    var fq := Lower(e.question);
    if WordSet(ql) * WordSet(fq) != {} {
      var w :| w in WordSet(ql) * WordSet(fq);
      var i :| 0 <= i < |Words(ql)| && Words(ql)[i] == w;
      var j :| 0 <= j < |Words(fq)| && Words(fq)[j] == w;
      WordOccurs(ql, i);
      assert Contains(ql, Words(fq)[j]);
    }
  }

  function Scores(es: seq<Entry>, ql: string): (s: seq<real>)
    ensures |s| == |es|
    ensures forall i :: 0 <= i < |es| ==> s[i] == LexicalScore(ql, es[i])
  {
    seq(|es|, i requires 0 <= i < |es| => LexicalScore(ql, es[i]))
  }

  /** The fallback scores of the corpus entries against a query. */
  function FallbackScores(doc: Document, query: string): seq<real> {
    Scores(AllEntries(doc), Lower(query))
  }

  /** Position `k` holds a maximal score, strictly above every earlier one:
      the first maximum. */
  predicate IsFirstMax(scores: seq<real>, k: nat) {
    && k < |scores|
    && (forall j :: 0 <= j < |scores| ==> scores[j] <= scores[k])
    && (forall j :: 0 <= j < k ==> scores[j] < scores[k])
  }

  lemma FirstMaxUnique(scores: seq<real>, k1: nat, k2: nat)
    requires IsFirstMax(scores, k1) && IsFirstMax(scores, k2)
    ensures k1 == k2
  {
    var s1, s2 := scores[k1], scores[k2];
    assert s1 <= s2 && s2 <= s1;
  }

  datatype Best = Best(score: real, index: Option<nat>)

  /** The scan over the corpus: a running best that starts at 0 and is
      replaced only by a strictly greater score. The first maximal entry
      wins, and a score of 0 never does. */
  function RunningBest(scores: seq<real>): (b: Best)
    ensures b.index.None? ==> b.score == 0.0 && forall j :: 0 <= j < |scores| ==> scores[j] <= 0.0
    ensures b.index.Some? ==> IsFirstMax(scores, b.index.value)
                              && b.score == scores[b.index.value] > 0.0
    decreases |scores|
  {
    if |scores| == 0 then Best(0.0, None)
    else
      var b := RunningBest(scores[..|scores| - 1]);
      var s := scores[|scores| - 1];
      if s > b.score then Best(s, Some(|scores| - 1)) else b
  }

  /** `_fallback_answer_question(question)`: the answer of the first entry
      with the highest score, provided that score exceeds the cut-off and
      the answer is non-empty; the fixed message otherwise. The result is
      never empty. */
  function FallbackAnswer(doc: Document, query: string): (r: string)
    ensures |r| > 0
    ensures r == NoAnswerMessage
            || exists k: nat :: IsFirstMax(FallbackScores(doc, query), k)
                               && FallbackScores(doc, query)[k] > Cutoff
                               && r == AllEntries(doc)[k].answer
    ensures forall k: nat :: IsFirstMax(FallbackScores(doc, query), k)
                             && FallbackScores(doc, query)[k] > Cutoff
                             && AllEntries(doc)[k].answer != ""
                             ==> r == AllEntries(doc)[k].answer
    ensures (forall k :: 0 <= k < |AllEntries(doc)| ==> FallbackScores(doc, query)[k] <= Cutoff)
            ==> r == NoAnswerMessage
  {
    var es := AllEntries(doc);
    var b := RunningBest(FallbackScores(doc, query));
    match b.index
    case None => NoAnswerMessage
    case Some(k) =>
      forall k' | IsFirstMax(FallbackScores(doc, query), k') {
        FirstMaxUnique(FallbackScores(doc, query), k, k');
      }
      if es[k].answer != "" && b.score > Cutoff then es[k].answer else NoAnswerMessage
  }

  /** An empty query shares no word with anything and contains no non-empty
      word, so it always gets the fixed message. */
  lemma EmptyQueryNoAnswer(doc: Document)
    ensures FallbackAnswer(doc, "") == NoAnswerMessage
  {
    assert Lower("") == "";
    assert Words("") == [];
    forall k | 0 <= k < |AllEntries(doc)|
      ensures FallbackScores(doc, "")[k] <= Cutoff
    {
      var e := AllEntries(doc)[k];
      forall w: string | |w| > 0 ensures !Contains("", w) {
        ContainsEmpty("", w);
      }
      assert !AnyWordIn(Words(Lower(e.question)), "");
      assert !AnyWordIn(Words(Lower(e.answer)), "");
    }
  }

  /** With a single entry, the fallback returns its answer exactly when the
      answer is non-empty and some word of its question or answer occurs in
      the lower-cased query. */
  lemma SingleEntry(key: string, name: string, e: Entry, m: Metadata, query: string)
    ensures var doc := Document(Some([Category(key, name, [e])]), Some(m));
            FallbackAnswer(doc, query) == e.answer || FallbackAnswer(doc, query) == NoAnswerMessage
    ensures var doc := Document(Some([Category(key, name, [e])]), Some(m));
            e.answer != "" && (AnyWordIn(Words(Lower(e.question)), Lower(query))
                               || AnyWordIn(Words(Lower(e.answer)), Lower(query)))
            ==> FallbackAnswer(doc, query) == e.answer
  {
    var doc := Document(Some([Category(key, name, [e])]), Some(m));
    var cs := [Category(key, name, [e])];
    assert Categories(doc) == cs;
    assert cs[1..] == [];
    assert Flatten(cs) == [e] + Flatten([]);
    assert AllEntries(doc) == [e];
    ScoreAboveCutoff(Lower(query), e);
    assert IsFirstMax(FallbackScores(doc, query), 0) <== FallbackScores(doc, query)[0] > 0.0;
  }
}

=== FILE: llm.dfy ===
/** The text handling around the language model: reading a
    `DESCRIPTION:`/`TAGS:` reply, the canned replies used without an API
    key, and the context built from a vision reply. The HTTP requests are not
    part of this model. */
module Llm {
  import opened Wrappers
  import opened Text
  import opened Annotations
  import opened ReplyLine

  // ------------------------------------------------------- reply parsing

  const DefaultDescription := "A detailed description of the image based on analysis."
  const DefaultTags: seq<string> := ["image", "analysis", "content"]

  /** The text of the last description line, looking from the end. */
  function LastDescription(kinds: seq<LineKind>): (d: Option<string>)
    ensures d.None? <==> forall i :: 0 <= i < |kinds| ==> !kinds[i].DescriptionLine?
    decreases |kinds|
  {
    if |kinds| == 0 then None
    else if kinds[|kinds| - 1].DescriptionLine? then Some(kinds[|kinds| - 1].text)
    else LastDescription(kinds[..|kinds| - 1])
  }

  /** The tags of the last tags line, looking from the end. */
  function LastTags(kinds: seq<LineKind>): (ts: Option<seq<string>>)
    ensures ts.None? <==> forall i :: 0 <= i < |kinds| ==> !kinds[i].TagsLine?
    decreases |kinds|
  {
    if |kinds| == 0 then None
    else if kinds[|kinds| - 1].TagsLine? then Some(kinds[|kinds| - 1].tags)
    else LastTags(kinds[..|kinds| - 1])
  }

  /** The last description line is the one at position `i` when no later
      line is one. */
  lemma {:induction false} LastDescriptionAt(kinds: seq<LineKind>, i: nat)
    requires i < |kinds| && kinds[i].DescriptionLine?
    requires forall j :: i < j < |kinds| ==> !kinds[j].DescriptionLine?
    ensures LastDescription(kinds) == Some(kinds[i].text)
    decreases |kinds|
  {
    if i < |kinds| - 1 {
      LastDescriptionAt(kinds[..|kinds| - 1], i);
    }
  }

  /** The last tags line is the one at position `i` when no later line is
      one. */
  lemma {:induction false} LastTagsAt(kinds: seq<LineKind>, i: nat)
    requires i < |kinds| && kinds[i].TagsLine?
    requires forall j :: i < j < |kinds| ==> !kinds[j].TagsLine?
    ensures LastTags(kinds) == Some(kinds[i].tags)
    decreases |kinds|
  {
    if i < |kinds| - 1 {
      LastTagsAt(kinds[..|kinds| - 1], i);
    }
  }

  /** Adding a line in front changes the last description or tags only
      when there were none. */
  lemma {:induction false} LastCons(k: LineKind, rest: seq<LineKind>)
    ensures LastDescription([k] + rest)
            == if LastDescription(rest).Some? then LastDescription(rest)
               else if k.DescriptionLine? then Some(k.text) else None
    ensures LastTags([k] + rest)
            == if LastTags(rest).Some? then LastTags(rest)
               else if k.TagsLine? then Some(k.tags) else None
    decreases |rest|
  {
    var kinds := [k] + rest;
    if |rest| > 0 {
      assert kinds[..|kinds| - 1] == [k] + rest[..|rest| - 1];
      assert kinds[|kinds| - 1] == rest[|rest| - 1];
      LastCons(k, rest[..|rest| - 1]);
    } else {
      assert kinds[..0] == [];
    }
  }

  /** The loop over the lines, front to back: a description line replaces
      the description and a tags line the tags, even with an empty value.
      It ends with what the last line of each kind said, or with the values
      passed in when there was none. */
  function Scan(kinds: seq<LineKind>, description: string, tags: seq<string>): (r: (string, seq<string>))
    ensures r == (LastDescription(kinds).GetOr(description), LastTags(kinds).GetOr(tags))
    decreases |kinds|
  {
    if |kinds| == 0 then (description, tags)
    else
      var tail := kinds[1..];
      assert kinds == [kinds[0]] + tail;
      LastCons(kinds[0], tail);
      match kinds[0]
      case DescriptionLine(d) => Scan(tail, d, tags)
      case TagsLine(ts) => Scan(tail, description, ts)
      case OtherLine => Scan(tail, description, tags)
  }

  /** `response_text.strip().split('\n')`. */
  function ReplyLines(text: string): seq<string> {
    Split(Strip(text), '\n')
  }

  /** The lines of the reply, each classified. */
  function ReplyKinds(text: string): (kinds: seq<LineKind>)
    ensures |kinds| == |ReplyLines(text)|
    ensures forall i :: 0 <= i < |kinds| ==> kinds[i] == Classify(ReplyLines(text)[i])
  {
    var lines := ReplyLines(text);
    seq(|lines|, i requires 0 <= i < |lines| => Classify(lines[i]))
  }

  /** `_parse_description_tags_response(text)`: what the last description
      line and the last tags line say, with the fixed description and the
      fixed tags standing in for a missing or empty value. The description is
      never empty and, unless it is the fixed one, carries no surrounding
      whitespace; the tags are never empty and each is clean. */
  function ParseDescriptionTags(text: string): (r: (string, seq<string>))
    ensures |r.0| > 0 && (r.0 == DefaultDescription || IsStripped(r.0))
    ensures |r.1| > 0 && CleanTags(r.1)
    ensures var d := LastDescription(ReplyKinds(text)).GetOr("");
            r.0 == if d == "" then DefaultDescription else d
    ensures var ts := LastTags(ReplyKinds(text)).GetOr([]);
            r.1 == if ts == [] then DefaultTags else ts
  {
    var kinds := ReplyKinds(text);
    var s := Scan(kinds, "", []);
    KindsClean(text);
    LastClean(kinds);
    DefaultsClean();
    (if s.0 == "" then DefaultDescription else s.0, if s.1 == [] then DefaultTags else s.1)
  }

  lemma DefaultsClean()
    ensures CleanTags(DefaultTags)
  {
    EndsAboveSpace(DefaultTags[0]);
    EndsAboveSpace(DefaultTags[1]);
    EndsAboveSpace(DefaultTags[2]);
  }

  /** What a line says is clean: a stripped description, clean tags. */
  predicate KindClean(k: LineKind) {
    && (k.DescriptionLine? ==> IsStripped(k.text))
    && (k.TagsLine? ==> CleanTags(k.tags))
  }

  predicate AllClean(kinds: seq<LineKind>) {
    forall i :: 0 <= i < |kinds| ==> KindClean(kinds[i])
  }

  lemma KindsClean(text: string)
    ensures AllClean(ReplyKinds(text))
  {
    var lines := ReplyLines(text);
    forall i | 0 <= i < |lines| ensures KindClean(ReplyKinds(text)[i]) {
      ClassifyClean(lines[i]);
    }
  }

  /** What the last lines say is stripped and clean when every line's is. */
  lemma {:induction false} LastClean(kinds: seq<LineKind>)
    requires AllClean(kinds)
    ensures LastDescription(kinds).Some? ==> IsStripped(LastDescription(kinds).value)
    ensures LastTags(kinds).Some? ==> CleanTags(LastTags(kinds).value)
    decreases |kinds|
  {
    if |kinds| > 0 {
      assert KindClean(kinds[|kinds| - 1]);
      LastClean(kinds[..|kinds| - 1]);
    }
  }

  /** A reply without any marker line gets the fixed description and the
      fixed tags. */
  lemma NoMarkersGiveDefaults(text: string)
    requires forall i :: 0 <= i < |ReplyKinds(text)| ==> ReplyKinds(text)[i].OtherLine?
    ensures ParseDescriptionTags(text) == (DefaultDescription, DefaultTags)
  {
  }

  /** The last description line of the reply decides the description: its
      text, or the fixed sentence when that text is empty. */
  lemma LastDescriptionWins(text: string, i: nat)
    requires i < |ReplyKinds(text)| && ReplyKinds(text)[i].DescriptionLine?
    requires forall j :: i < j < |ReplyKinds(text)| ==> !ReplyKinds(text)[j].DescriptionLine?
    ensures var d := ReplyKinds(text)[i].text;
            ParseDescriptionTags(text).0 == if d == "" then DefaultDescription else d
  {
    LastDescriptionAt(ReplyKinds(text), i);
  }

  /** The last tags line of the reply decides the tags: its tags, or the
      fixed ones when it yields none. */
  lemma LastTagsWin(text: string, i: nat)
    requires i < |ReplyKinds(text)| && ReplyKinds(text)[i].TagsLine?
    requires forall j :: i < j < |ReplyKinds(text)| ==> !ReplyKinds(text)[j].TagsLine?
    ensures var ts := ReplyKinds(text)[i].tags;
            ParseDescriptionTags(text).1 == if ts == [] then DefaultTags else ts
  {
    LastTagsAt(ReplyKinds(text), i);
  }

  /** A line carrying both markers counts as a description line only. */
  lemma DescriptionBeforeTags(line: string)
    requires DescriptionKey <= Strip(line) && Contains(line, TagsKey)
    ensures !Classify(line).TagsLine?
  {
  }

  // ------------------------------------------------------ canned replies

  const WhatIsInKey := "what is in this image"
  const WhatIsInReply := "This appears to be a natural landscape with trees and outdoor scenery."
  const DescribeKey := "describe the photo"
  const DescribeReply := "The image shows a beautiful outdoor scene with natural elements."
  const ColorsKey := "what colors are present"
  const ColorsReply := "Based on the analysis, this image likely contains natural greens and earth tones."
  const TextKey := "is there text in the image"
  const TextReply := "The analysis detected some text content in the image."
  const ObjectsKey := "what objects can you see"
  const ObjectsReply := "I can see trees and other natural objects in this landscape image."
  const DefaultReply := "I can see this is an image with various elements. Could you ask a more specific question about what you'd like to know?"

  /** The canned replies, in the dictionary's insertion order. */
  const CannedReplies: seq<(string, string)> := [
    (WhatIsInKey, WhatIsInReply), (DescribeKey, DescribeReply), (ColorsKey, ColorsReply),
    (TextKey, TextReply), (ObjectsKey, ObjectsReply)]

  /** The position of the first key occurring in `text`. */
  function FirstKeyIn(pairs: seq<(string, string)>, text: string): (k: Option<nat>)
    ensures k.None? <==> forall i :: 0 <= i < |pairs| ==> !Contains(text, pairs[i].0)
    ensures k.Some? ==> k.value < |pairs| && Contains(text, pairs[k.value].0)
                        && forall i :: 0 <= i < k.value ==> !Contains(text, pairs[i].0)
    decreases |pairs|
  {
    if |pairs| == 0 then None
    else if Contains(text, pairs[0].0) then Some(0)
    else
      match FirstKeyIn(pairs[1..], text)
      case None => None
      case Some(k) => Some(k + 1)
  }

  /** `_get_mock_response(prompt)`: the reply of the first key, in listed
      order, occurring in the lower-cased prompt; the fixed default when
      none does. */
  function CannedReply(prompt: string): (r: string)
    ensures (forall i :: 0 <= i < |CannedReplies| ==> !Contains(Lower(prompt), CannedReplies[i].0))
            ==> r == DefaultReply
    ensures forall k :: 0 <= k < |CannedReplies| && Contains(Lower(prompt), CannedReplies[k].0)
                        && (forall i :: 0 <= i < k ==> !Contains(Lower(prompt), CannedReplies[i].0))
                        ==> r == CannedReplies[k].1
  {
    match FirstKeyIn(CannedReplies, Lower(prompt))
    case None => DefaultReply
    case Some(k) => CannedReplies[k].1
  }

  /** The canned reply ignores case: a prompt and its lower-cased form get
      the same reply. */
  lemma CannedReplyIgnoresCase(prompt: string)
    ensures CannedReply(Lower(prompt)) == CannedReply(prompt)
  {
    LowerIdempotent(prompt);
  }

  /** A prompt holding the first key gets its reply, whatever else it holds. */
  lemma FirstKeyWins(prompt: string)
    requires Contains(Lower(prompt), WhatIsInKey)
    ensures CannedReply(prompt) == WhatIsInReply
  {
  }

  const NatureDescription := "A beautiful natural landscape featuring outdoor scenery with trees and natural elements."
  const NatureTags: seq<string> := ["nature", "landscape", "outdoor", "trees", "scenery", "natural"]
  const TextDescription := "An image containing text content that has been analyzed and extracted."
  const TextTags: seq<string> := ["text", "document", "ocr", "content", "reading"]
  const PeopleDescription := "A portrait or image featuring people with detected faces and human elements."
  const PeopleTags: seq<string> := ["portrait", "people", "face", "human", "person"]
  const OtherDescription := "An analyzed image with various detected elements and content."
  const OtherTags: seq<string> := ["image", "analysis", "content", "detected", "elements"]

  /** The cases of the canned description, in priority order. */
  datatype Topic = Nature | Writing | People | General

  /** The first case, in priority order nature or landscape, then text, then
      face or person, whose word occurs in the lower-cased input; the
      general case otherwise. */
  function TopicOf(text: string): (t: Topic)
    ensures var l := Lower(text);
            && (t == Nature <==> Contains(l, "nature") || Contains(l, "landscape"))
            && (t == Writing <==> !Contains(l, "nature") && !Contains(l, "landscape") && Contains(l, "text"))
            && (t == People <==> !Contains(l, "nature") && !Contains(l, "landscape") && !Contains(l, "text")
                                 && (Contains(l, "face") || Contains(l, "person")))
  {
    var l := Lower(text);
    if Contains(l, "nature") || Contains(l, "landscape") then Nature
    else if Contains(l, "text") then Writing
    else if Contains(l, "face") || Contains(l, "person") then People
    else General
  }

  /** The fixed description of each case. */
  function TopicDescription(t: Topic): (d: string)
    ensures |d| > 0
  {
    match t
    case Nature => NatureDescription
    case Writing => TextDescription
    case People => PeopleDescription
    case General => OtherDescription
  }

  /** The fixed tags of each case: never empty, each tag clean. */
  function TopicTags(t: Topic): (ts: seq<string>)
    ensures |ts| > 0 && CleanTags(ts)
  {
    match t
    case Nature => NatureTags
    case Writing => TextTags
    case People => PeopleTags
    case General => OtherTags
  }

  /** `_get_mock_description_tags(text)`: the fixed description and tags of
      the input's case, so always a non-empty description and non-empty
      clean tags. */
  function CannedDescriptionTags(text: string): (r: (string, seq<string>))
    ensures |r.0| > 0 && |r.1| > 0 && CleanTags(r.1)
    ensures TopicOf(text) == Nature ==> r == (NatureDescription, NatureTags)
    ensures TopicOf(text) == Writing ==> r == (TextDescription, TextTags)
    ensures TopicOf(text) == People ==> r == (PeopleDescription, PeopleTags)
    ensures TopicOf(text) == General ==> r == (OtherDescription, OtherTags)
  {
    var t := TopicOf(text);
    (TopicDescription(t), TopicTags(t))
  }

  /** The canned description and tags ignore case. */
  lemma CannedDescriptionTagsIgnoresCase(text: string)
    ensures CannedDescriptionTags(Lower(text)) == CannedDescriptionTags(text)
  {
    LowerIdempotent(text);
  }

  // ------------------------------------------------------ analysis context

  const NoAnalysisMessage := "No image analysis data available."
  const NoDetailsMessage := "No specific details detected."

  /** At most this many labels and objects go into the context. */
  const MaxLabels: nat := 5
  const MaxObjects: nat := 3

  /** `f"{name} ({score:.2f})"`, with the score's formatting a parameter. */
  function Scored(name: string, score: real, fmt: real -> string): string {
    name + " (" + fmt(score) + ")"
  }

  function ScoredLabels(ls: seq<Label>, fmt: real -> string): (r: seq<string>)
    ensures |r| == |ls|
    ensures forall i :: 0 <= i < |ls| ==> r[i] == Scored(ls[i].description, ls[i].score, fmt)
  {
    seq(|ls|, i requires 0 <= i < |ls| => Scored(ls[i].description, ls[i].score, fmt))
  }

  function ScoredObjects(os: seq<LocalizedObject>, fmt: real -> string): (r: seq<string>)
    ensures |r| == |os|
    ensures forall i :: 0 <= i < |os| ==> r[i] == Scored(os[i].name, os[i].score, fmt)
  {
    seq(|os|, i requires 0 <= i < |os| => Scored(os[i].name, os[i].score, fmt))
  }

  const LabelsLead := "Detected objects/concepts: "
  const TextLead := "Text found: "
  const ObjectsLead := "Specific objects: "

  /** The labels line: the first five labels, each with its score. */
  function LabelsLine(ls: seq<Label>, fmt: real -> string): string {
    LabelsLead + Join(ScoredLabels(Take(ls, MaxLabels), fmt), ", ")
  }

  /** The objects line: the first three objects, each with its score. */
  function ObjectsLine(os: seq<LocalizedObject>, fmt: real -> string): string {
    ObjectsLead + Join(ScoredObjects(Take(os, MaxObjects), fmt), ", ")
  }

  /** The context parts, in the order labels, text, objects; each present
      exactly when its annotation list is non-empty. The text is not cut. */
  function ContextParts(resp: Response, fmt: real -> string): (parts: seq<string>)
    ensures |parts| == (if |resp.labels| > 0 then 1 else 0) + (if |resp.texts| > 0 then 1 else 0)
                       + (if |resp.objects| > 0 then 1 else 0)
    ensures |resp.labels| > 0 ==> parts[0] == LabelsLine(resp.labels, fmt)
    ensures var li := if |resp.labels| > 0 then 1 else 0;
            |resp.texts| > 0 ==> parts[li] == TextLead + TextOf(resp.texts[0])
    ensures |resp.objects| > 0 ==> parts[|parts| - 1] == ObjectsLine(resp.objects, fmt)
  {
    Section(|resp.labels| > 0, LabelsLine(resp.labels, fmt))
    + Section(|resp.texts| > 0, TextLead + TextOf(if |resp.texts| > 0 then resp.texts[0] else TextAnnotation(None)))
    + Section(|resp.objects| > 0, ObjectsLine(resp.objects, fmt))
  }

  /** `_format_analysis_for_llm(analysis)`: the fixed "no data" message
      without `responses`; a raised error for an empty list; otherwise the
      parts of the first response joined by newlines, or the fixed "no
      details" message when there are none. */
  function FormatAnalysis(result: AnalysisResult, fmt: real -> string): (r: Outcome<string>)
    ensures result.responses.None? ==> r == Ok(NoAnalysisMessage)
    ensures result.responses == Some([]) ==> r.Raised?
    ensures result.responses.Some? && |result.responses.value| > 0 ==>
              var parts := ContextParts(result.responses.value[0], fmt);
              r == Ok(if |parts| == 0 then NoDetailsMessage else Join(parts, "\n"))
  {
    match result.responses
    case None => Ok(NoAnalysisMessage)
    case Some(rs) =>
      match FirstResponse(rs)
      case Raised(e) => Raised(e)
      case Ok(resp) =>
        var parts := ContextParts(resp, fmt);
        Ok(if |parts| == 0 then NoDetailsMessage else Join(parts, "\n"))
  }

  /** Only the first five labels and the first three objects reach the
      context. */
  lemma ContextUsesFirstFew(resp: Response, fmt: real -> string)
    ensures ContextParts(resp.(labels := Take(resp.labels, MaxLabels), objects := Take(resp.objects, MaxObjects)), fmt)
            == ContextParts(resp, fmt)
  {
    assert Take(Take(resp.labels, MaxLabels), MaxLabels) == Take(resp.labels, MaxLabels);
    assert Take(Take(resp.objects, MaxObjects), MaxObjects) == Take(resp.objects, MaxObjects);
  }

  /** Unlike the image description, the context carries the whole of the
      text found, however long. */
  lemma ContextKeepsWholeText(result: AnalysisResult, fmt: real -> string)
    requires result.responses.Some? && |result.responses.value| > 0
    requires |result.responses.value[0].texts| > 0
    ensures FormatAnalysis(result, fmt).Ok?
    ensures Contains(FormatAnalysis(result, fmt).value, TextOf(result.responses.value[0].texts[0]))
  {
    var resp := result.responses.value[0];
    var parts := ContextParts(resp, fmt);
    var k := if |resp.labels| > 0 then 1 else 0;
    var line := TextLead + TextOf(resp.texts[0]);
    JoinContains(parts, "\n", k);
    assert line[|TextLead|..] == TextOf(resp.texts[0]);
    assert TextOf(resp.texts[0]) <= TextOf(resp.texts[0])[0..];
    ContainsSuffix(line, |TextLead|, TextOf(resp.texts[0]));
    ContainsTrans(Join(parts, "\n"), line, TextOf(resp.texts[0]));
  }

  /** Each of the first five labels reaches the context, with its score. */
  lemma ContextNamesLabels(result: AnalysisResult, fmt: real -> string, i: nat)
    requires result.responses.Some? && |result.responses.value| > 0
    requires i < Min(|result.responses.value[0].labels|, MaxLabels)
    ensures FormatAnalysis(result, fmt).Ok?
    ensures var l := result.responses.value[0].labels[i];
            Contains(FormatAnalysis(result, fmt).value, Scored(l.description, l.score, fmt))
            && Contains(FormatAnalysis(result, fmt).value, l.description)
  {
    var resp := result.responses.value[0];
    var l := resp.labels[i];
    var scored := ScoredLabels(Take(resp.labels, MaxLabels), fmt);
    var line := LabelsLine(resp.labels, fmt);
    JoinContains(scored, ", ", i);
    assert line[|LabelsLead|..] == Join(scored, ", ");
    ContainsSuffix(line, |LabelsLead|, scored[i]);
    var parts := ContextParts(resp, fmt);
    JoinContains(parts, "\n", 0);
    ContainsTrans(Join(parts, "\n"), line, scored[i]);
    NameInScored(l.description, l.score, fmt);
    ContainsTrans(Join(parts, "\n"), scored[i], l.description);
  }

  /** Each of the first three objects reaches the context, with its score. */
  lemma ContextNamesObjects(result: AnalysisResult, fmt: real -> string, i: nat)
    requires result.responses.Some? && |result.responses.value| > 0
    requires i < Min(|result.responses.value[0].objects|, MaxObjects)
    ensures FormatAnalysis(result, fmt).Ok?
    ensures var o := result.responses.value[0].objects[i];
            Contains(FormatAnalysis(result, fmt).value, Scored(o.name, o.score, fmt))
            && Contains(FormatAnalysis(result, fmt).value, o.name)
  {
    var resp := result.responses.value[0];
    var o := resp.objects[i];
    var scored := ScoredObjects(Take(resp.objects, MaxObjects), fmt);
    var line := ObjectsLine(resp.objects, fmt);
    JoinContains(scored, ", ", i);
    assert line[|ObjectsLead|..] == Join(scored, ", ");
    ContainsSuffix(line, |ObjectsLead|, scored[i]);
    var parts := ContextParts(resp, fmt);
    JoinContains(parts, "\n", |parts| - 1);
    ContainsTrans(Join(parts, "\n"), line, scored[i]);
    NameInScored(o.name, o.score, fmt);
    ContainsTrans(Join(parts, "\n"), scored[i], o.name);
  }

  /** A name occurs in its scored form. */
  lemma NameInScored(name: string, score: real, fmt: real -> string)
    ensures Contains(Scored(name, score, fmt), name)
  {
    assert name <= Scored(name, score, fmt)[0..];
  }
}

=== FILE: monitor.dfy ===
/** The performance monitor's bookkeeping: call counters, the history of
    per-operation records and what is computed from them. The clock and the
    system readings (`time.time()`, `psutil`) are inputs; logging and the
    JSON export are not part of this model. */
module Monitor {
  import opened Wrappers

  /** One record per finished operation. */
  datatype Metrics = Metrics(timestamp: real, processingTime: real, memoryUsage: real, cpuUsage: real,
                             apiCalls: nat, successRate: real, errorCount: nat)

  /** What the clock and `psutil` say when an operation ends. */
  datatype Sample = Sample(endTime: real, memoryUsage: real, cpuUsage: real)

  datatype Monitor = Monitor(history: seq<Metrics>, startTime: real,
                             apiCalls: nat, successfulCalls: nat, errorCalls: nat)

  /** The monitor's invariant: every call is a success or an error; the
      records' call counts strictly increase and never pass the current
      count; their error counts never decrease and never pass the current
      error count. */
  predicate Valid(m: Monitor) {
    && m.apiCalls == m.successfulCalls + m.errorCalls
    && (forall i, j :: 0 <= i < j < |m.history| ==> m.history[i].apiCalls < m.history[j].apiCalls)
    && (forall i, j :: 0 <= i < j < |m.history| ==> m.history[i].errorCount <= m.history[j].errorCount)
    && (forall i :: 0 <= i < |m.history| ==> m.history[i].apiCalls <= m.apiCalls)
    && (forall i :: 0 <= i < |m.history| ==> m.history[i].errorCount <= m.errorCalls)
  }

  /** A fresh monitor: no calls, no history. */
  function NewMonitor(startTime: real): (m: Monitor)
    ensures Valid(m) && m.history == [] && m.apiCalls == 0
  {
    Monitor([], startTime, 0, 0, 0)
  }

  /** `(successes / calls) * 100 if calls > 0 else 0`. */
  function Rate(part: nat, calls: nat): (r: real)
    requires part <= calls
    ensures 0.0 <= r <= 100.0
    ensures calls > 0 ==> r * calls as real == part as real * 100.0
    ensures calls == 0 ==> r == 0.0
  {
    if calls > 0 then (part as real / calls as real) * 100.0 else 0.0
  }

  /** The success rate and the error rate add up to 100 once there was a
      call. */
  lemma RatesComplement(m: Monitor)
    requires Valid(m) && m.apiCalls > 0
    ensures Rate(m.successfulCalls, m.apiCalls) + Rate(m.errorCalls, m.apiCalls) == 100.0
  {
    var c := m.apiCalls as real;
    var s, e := Rate(m.successfulCalls, m.apiCalls), Rate(m.errorCalls, m.apiCalls);
    SumOfShares(s, e, c, m.successfulCalls as real * 100.0, m.errorCalls as real * 100.0);
  }

  /** Two shares of the same positive whole whose scaled parts add up to
      100 times the whole add up to 100. */
  lemma SumOfShares(s: real, e: real, c: real, a: real, b: real)
    requires c > 0.0 && s * c == a && e * c == b && a + b == 100.0 * c
    ensures s + e == 100.0
  {
    assert (s + e) * c == s * c + e * c;
  }

  /** `end_operation(name, start, success)`: one more call, counted as a
      success or as an error. Then the readings are taken. When they succeed,
      one record describing the call is appended, holding the counters after
      the increment. When `psutil` raises, the call stays counted, no record
      is added and the error escapes. */
  function EndOperation(m: Monitor, start: real, success: bool, reading: Outcome<Sample>): (r: (Monitor, Outcome<Metrics>))
    requires Valid(m)
    ensures Valid(r.0)
    ensures r.0.apiCalls == m.apiCalls + 1
    ensures r.0.successfulCalls == m.successfulCalls + (if success then 1 else 0)
    ensures r.0.errorCalls == m.errorCalls + (if success then 0 else 1)
    ensures r.0.startTime == m.startTime
    ensures reading.Raised? ==> r.1 == Raised(reading.error) && r.0.history == m.history
    ensures reading.Ok? ==> r.1.Ok? && r.0.history == m.history + [r.1.value]
    ensures reading.Ok? ==> r.1.value.apiCalls == r.0.apiCalls && r.1.value.errorCount == r.0.errorCalls
    ensures reading.Ok? ==> r.1.value.successRate == Rate(r.0.successfulCalls, r.0.apiCalls)
    ensures reading.Ok? ==> r.1.value.processingTime == reading.value.endTime - start
                            && r.1.value.timestamp == reading.value.endTime
    ensures reading.Ok? ==> r.1.value.memoryUsage == reading.value.memoryUsage
                            && r.1.value.cpuUsage == reading.value.cpuUsage
  {
    var calls := m.apiCalls + 1;
    var successes := if success then m.successfulCalls + 1 else m.successfulCalls;
    var errors := if success then m.errorCalls else m.errorCalls + 1;
    match reading
    case Raised(e) => (Monitor(m.history, m.startTime, calls, successes, errors), Raised(e))
    case Ok(sample) =>
      var record := Metrics(sample.endTime, sample.endTime - start, sample.memoryUsage, sample.cpuUsage,
                            calls, Rate(successes, calls), errors);
      var h := m.history + [record];
      assert forall i :: 0 <= i < |m.history| ==> h[i] == m.history[i];
      (Monitor(h, m.startTime, calls, successes, errors), Ok(record))
  }

  // ------------------------------------------------------------- cleanup

  /** Python's `h[start:]` for any integer `start`: a negative start counts
      from the end and is clamped at the front, a positive one is clamped at
      the end. */
  function SliceFrom<T>(h: seq<T>, start: int): (r: seq<T>)
    ensures var k := if start < 0 then Max0(|h| + start) else Min0(start, |h|);
            k <= |h| && r == h[k..]
  {
    if start < 0 then h[Max0(|h| + start)..] else h[Min0(start, |h|)..]
  }

  function Max0(x: int): nat {
    if x < 0 then 0 else x
  }

  function Min0(x: nat, y: nat): nat {
    if x <= y then x else y
  }

  /** `cleanup_old_metrics(max_history)` as written: when the history is
      longer than the limit, it becomes `history[-max_history:]`. */
  function CleanupAsWritten(m: Monitor, maxHistory: int): (r: Monitor)
    ensures r.apiCalls == m.apiCalls && r.errorCalls == m.errorCalls
    ensures r.successfulCalls == m.successfulCalls && r.startTime == m.startTime
    ensures |m.history| <= maxHistory ==> r == m
    ensures |m.history| > maxHistory > 0 ==> r.history == m.history[|m.history| - maxHistory..]
  {
    if |m.history| > maxHistory then m.(history := SliceFrom(m.history, -maxHistory)) else m
  }

  /** With a limit of zero the written code keeps the whole history:
      `history[-0:]` is `history[0:]`. */
  lemma CleanupZeroKeepsAll(m: Monitor)
    requires |m.history| > 0
    ensures CleanupAsWritten(m, 0).history == m.history
    ensures |CleanupAsWritten(m, 0).history| > 0
  {
  }

  /** A negative limit keeps the history minus its first records rather than
      at most a non-negative number of them. */
  lemma CleanupNegativeDropsFront()
    ensures var rec := Metrics(0.0, 0.0, 0.0, 0.0, 1, 100.0, 0);
            var m := Monitor([rec, rec, rec], 0.0, 1, 1, 0);
            |CleanupAsWritten(m, -1).history| == 2
  {
  }

  /** `cleanup_old_metrics(max_history)` as evidently intended: keep the
      last `max(0, max_history)` records, in order, and nothing else
      changes; a history within the limit is left alone. */
  function Cleanup(m: Monitor, maxHistory: int): (r: Monitor)
    ensures r.apiCalls == m.apiCalls && r.errorCalls == m.errorCalls
    ensures r.successfulCalls == m.successfulCalls && r.startTime == m.startTime
    ensures |r.history| == if |m.history| <= Max0(maxHistory) then |m.history| else Max0(maxHistory)
    ensures r.history == m.history[|m.history| - |r.history|..]
  {
    var keep := Max0(maxHistory);
    if |m.history| > keep then m.(history := m.history[|m.history| - keep..]) else m
  }

  /** The limit `cleanup_old_metrics()` uses when called without one. */
  const DefaultMaxHistory: nat := 1000

  /** The two agree on every positive limit. */
  lemma CleanupAgreesAbove0(m: Monitor, maxHistory: int)
    requires maxHistory > 0
    ensures Cleanup(m, maxHistory) == CleanupAsWritten(m, maxHistory)
  {
  }

  /** With the default limit the written cleanup keeps exactly the last
      1000 records, as intended: the slice discrepancy needs a limit of 0 or
      below. */
  lemma DefaultCleanupAsIntended(m: Monitor)
    ensures CleanupAsWritten(m, DefaultMaxHistory) == Cleanup(m, DefaultMaxHistory)
    ensures |CleanupAsWritten(m, DefaultMaxHistory).history|
              == if |m.history| < DefaultMaxHistory then |m.history| else DefaultMaxHistory
  {
    CleanupAgreesAbove0(m, DefaultMaxHistory);
  }

  /** Keeping a suffix of the history keeps the monitor's invariant. */
  lemma CleanupValid(m: Monitor, maxHistory: int)
    requires Valid(m)
    ensures Valid(Cleanup(m, maxHistory))
  {
    SuffixValid(m, Cleanup(m, maxHistory));
  }

  /** The written cleanup keeps a suffix too, so it keeps the invariant on
      every limit, including the ones where it keeps more than intended. */
  lemma CleanupAsWrittenValid(m: Monitor, maxHistory: int)
    requires Valid(m)
    ensures Valid(CleanupAsWritten(m, maxHistory))
  {
    var r := CleanupAsWritten(m, maxHistory);
    if |m.history| > maxHistory {
      var k := if -maxHistory < 0 then Max0(|m.history| - maxHistory) else Min0(-maxHistory, |m.history|);
      assert r.history == m.history[k..];
    }
    SuffixValid(m, r);
  }

  /** A monitor whose history is a suffix of a valid monitor's, with the
      same counters, is valid. */
  lemma SuffixValid(m: Monitor, r: Monitor)
    requires Valid(m)
    requires r.apiCalls == m.apiCalls && r.successfulCalls == m.successfulCalls && r.errorCalls == m.errorCalls
    requires |r.history| <= |m.history| && r.history == m.history[|m.history| - |r.history|..]
    ensures Valid(r)
  {
    var d := |m.history| - |r.history|;
    assert forall i :: 0 <= i < |r.history| ==> r.history[i] == m.history[d + i];
    assert forall i, j :: 0 <= i < j < |r.history| ==> r.history[i].apiCalls < r.history[j].apiCalls by {
      forall i, j | 0 <= i < j < |r.history| ensures r.history[i].apiCalls < r.history[j].apiCalls {
        assert m.history[d + i].apiCalls < m.history[d + j].apiCalls;
      }
    }
    assert forall i, j :: 0 <= i < j < |r.history| ==> r.history[i].errorCount <= r.history[j].errorCount by {
      forall i, j | 0 <= i < j < |r.history| ensures r.history[i].errorCount <= r.history[j].errorCount {
        assert m.history[d + i].errorCount <= m.history[d + j].errorCount;
      }
    }
    assert forall i :: 0 <= i < |r.history| ==> r.history[i].apiCalls <= r.apiCalls by {
      forall i | 0 <= i < |r.history| ensures r.history[i].apiCalls <= r.apiCalls {
        assert m.history[d + i].apiCalls <= m.apiCalls;
      }
    }
    assert forall i :: 0 <= i < |r.history| ==> r.history[i].errorCount <= r.errorCalls by {
      forall i | 0 <= i < |r.history| ensures r.history[i].errorCount <= r.errorCalls {
        assert m.history[d + i].errorCount <= m.errorCalls;
      }
    }
  }

  /** Cleaning up twice with the same limit is cleaning up once. */
  lemma CleanupIdempotent(m: Monitor, maxHistory: int)
    ensures Cleanup(Cleanup(m, maxHistory), maxHistory) == Cleanup(m, maxHistory)
  {
  }

  // ------------------------------------------------------------- summary

  function Sum(xs: seq<real>): real
    decreases |xs|
  {
    if |xs| == 0 then 0.0 else Sum(xs[..|xs| - 1]) + xs[|xs| - 1]
  }

  /** `min(xs)`: an element no larger than any. */
  function MinOf(xs: seq<real>): (r: real)
    requires |xs| > 0
    ensures r in xs && forall i :: 0 <= i < |xs| ==> r <= xs[i]
    decreases |xs|
  {
    if |xs| == 1 then xs[0]
    else
      var rest := MinOf(xs[1..]);
      assert forall i :: 1 <= i < |xs| ==> xs[i] == xs[1..][i - 1];
      if xs[0] <= rest then xs[0] else rest
  }

  /** `max(xs)`: an element no smaller than any. */
  function MaxOf(xs: seq<real>): (r: real)
    requires |xs| > 0
    ensures r in xs && forall i :: 0 <= i < |xs| ==> xs[i] <= r
    decreases |xs|
  {
    if |xs| == 1 then xs[0]
    else
      var rest := MaxOf(xs[1..]);
      assert forall i :: 1 <= i < |xs| ==> xs[i] == xs[1..][i - 1];
      if xs[0] >= rest then xs[0] else rest
  }

  predicate Sorted(xs: seq<real>) {
    forall i, j :: 0 <= i < j < |xs| ==> xs[i] <= xs[j]
  }

  function Insert(x: real, xs: seq<real>): (r: seq<real>)
    requires Sorted(xs)
    ensures Sorted(r) && multiset(r) == multiset(xs) + multiset{x} && |r| == |xs| + 1
    ensures r[0] == x || (|xs| > 0 && r[0] == xs[0])
    decreases |xs|
  {
    if |xs| == 0 || x <= xs[0] then [x] + xs
    else
      var rest := Insert(x, xs[1..]);
      assert xs == [xs[0]] + xs[1..];
      assert xs[0] <= rest[0];
      [xs[0]] + rest
  }

  /** `sorted(xs)`: the same values in non-decreasing order. */
  function Sort(xs: seq<real>): (r: seq<real>)
    ensures Sorted(r) && multiset(r) == multiset(xs) && |r| == |xs|
    decreases |xs|
  {
    if |xs| == 0 then []
    else
      assert xs == xs[..|xs| - 1] + [xs[|xs| - 1]];
      Insert(xs[|xs| - 1], Sort(xs[..|xs| - 1]))
  }

  datatype Summary =
    | NoMetrics
    | Summary(totalOperations: nat, averageTime: real, minTime: real, maxTime: real, medianTime: real,
              memoryAverage: real, cpuAverage: real, successRate: real, uptimeHours: real)

  function ProcessingTimes(h: seq<Metrics>): (ts: seq<real>)
    ensures |ts| == |h| && forall i :: 0 <= i < |h| ==> ts[i] == h[i].processingTime
  {
    seq(|h|, i requires 0 <= i < |h| => h[i].processingTime)
  }

  function MemoryReadings(h: seq<Metrics>): (ts: seq<real>)
    ensures |ts| == |h| && forall i :: 0 <= i < |h| ==> ts[i] == h[i].memoryUsage
  {
    seq(|h|, i requires 0 <= i < |h| => h[i].memoryUsage)
  }

  function CpuReadings(h: seq<Metrics>): (ts: seq<real>)
    ensures |ts| == |h| && forall i :: 0 <= i < |h| ==> ts[i] == h[i].cpuUsage
  {
    seq(|h|, i requires 0 <= i < |h| => h[i].cpuUsage)
  }

  /** The median as the code takes it: `sorted(xs)[len(xs) // 2]`, the
      upper median for an even count. */
  function Median(xs: seq<real>): (r: real)
    requires |xs| > 0
    ensures r in xs
    ensures MinOf(xs) <= r <= MaxOf(xs)
    ensures forall s :: |s| == |xs| && Sorted(s) && multiset(s) == multiset(xs) ==> r == s[|xs| / 2]
  {
    var s := Sort(xs);
    var r := s[|s| / 2];
    assert r in multiset(s);
    assert forall t :: |t| == |xs| && Sorted(t) && multiset(t) == multiset(xs) ==> t == s by {
      forall t | |t| == |xs| && Sorted(t) && multiset(t) == multiset(xs)
        ensures t == s
      {
        SortedUnique(t, s);
      }
    }
    r
  }

  /** Two sorted sequences holding the same values are equal: there is
      only one sorted order. */
  lemma {:induction false} SortedUnique(s: seq<real>, t: seq<real>)
    requires Sorted(s) && Sorted(t) && multiset(s) == multiset(t)
    ensures s == t
    decreases |s|
  {
    assert |s| == |multiset(s)| == |t|;
    if |s| > 0 {
      SortedHeads(s, t);
      TailMultiset(s);
      TailMultiset(t);
      SortedUnique(s[1..], t[1..]);
      assert s == [s[0]] + s[1..] && t == [t[0]] + t[1..];
    }
  }

  /** Sorted sequences holding the same values start with the same value,
      their minimum. */
  lemma SortedHeads(s: seq<real>, t: seq<real>)
    requires Sorted(s) && Sorted(t) && multiset(s) == multiset(t) && |s| > 0 && |t| > 0
    ensures s[0] == t[0]
  {
    assert s[0] in multiset(t) && t[0] in multiset(s);
    var a :| 0 <= a < |t| && t[a] == s[0];
    var b :| 0 <= b < |s| && s[b] == t[0];
  }

  lemma TailMultiset(s: seq<real>)
    requires |s| > 0
    ensures multiset(s[1..]) == multiset(s) - multiset{s[0]}
  {
    assert s == [s[0]] + s[1..];
  }

  /** A value of a sorted sequence lies between its ends. */
  lemma SortedBetween(s: seq<real>, v: real)
    requires Sorted(s) && v in s
    ensures s[0] <= v <= s[|s| - 1]
  {
  }

  /** A value of `xs` lies between its minimum and its maximum. */
  lemma BetweenMinMax(xs: seq<real>, v: real)
    requires v in xs
    ensures MinOf(xs) <= v <= MaxOf(xs)
  {
    var i :| 0 <= i < |xs| && xs[i] == v;
  }

  /** Sorting keeps membership. */
  lemma SortKeeps(xs: seq<real>, v: real)
    ensures v in Sort(xs) <==> v in xs
  {
    var s := Sort(xs);
    assert v in s <==> v in multiset(s);
    assert v in xs <==> v in multiset(xs);
  }

  /** The sorted values run from the minimum to the maximum. */
  lemma SortEnds(xs: seq<real>)
    requires |xs| > 0
    ensures Sort(xs)[0] == MinOf(xs) && Sort(xs)[|xs| - 1] == MaxOf(xs)
  {
    var s := Sort(xs);
    var lo, hi := MinOf(xs), MaxOf(xs);
    SortKeeps(xs, lo);
    SortKeeps(xs, hi);
    SortedBetween(s, lo);
    SortedBetween(s, hi);
    SortKeeps(xs, s[0]);
    SortKeeps(xs, s[|s| - 1]);
    BetweenMinMax(xs, s[0]);
    BetweenMinMax(xs, s[|s| - 1]);
  }

  /** `get_performance_summary()` without the rounding: only a message for
      an empty history; otherwise the number of records, the processing-time
      average, minimum, maximum and median, the memory and cpu averages,
      the success rate and the uptime in hours. */
  function PerformanceSummary(m: Monitor, now: real): (r: Summary)
    requires Valid(m)
    ensures r.NoMetrics? <==> |m.history| == 0
    ensures r.Summary? ==> r.totalOperations == |m.history|
    ensures r.Summary? ==> r.minTime <= r.medianTime <= r.maxTime
    ensures r.Summary? ==> r.minTime <= r.averageTime <= r.maxTime
    ensures r.Summary? ==> 0.0 <= r.successRate <= 100.0
    ensures r.Summary? ==>
              var times := ProcessingTimes(m.history);
              && r.minTime == MinOf(times) && r.maxTime == MaxOf(times) && r.medianTime == Median(times)
              && r.averageTime == Sum(times) / |m.history| as real
    ensures r.Summary? ==>
              && r.memoryAverage == Sum(MemoryReadings(m.history)) / |m.history| as real
              && r.cpuAverage == Sum(CpuReadings(m.history)) / |m.history| as real
    ensures r.Summary? ==> r.successRate == Rate(m.successfulCalls, m.apiCalls)
    ensures r.Summary? ==> r.uptimeHours * 3600.0 == now - m.startTime
  {
    if |m.history| == 0 then NoMetrics
    else
      var n := |m.history| as real;
      var times := ProcessingTimes(m.history);
      var memory, cpu := MemoryReadings(m.history), CpuReadings(m.history);
      AverageBounds(times);
      Summary(|m.history|, Sum(times) / n, MinOf(times), MaxOf(times), Median(times),
              Sum(memory) / n, Sum(cpu) / n,
              Rate(m.successfulCalls, m.apiCalls), (now - m.startTime) / 3600.0)
  }

  /** The sum of the values lies between their count times the minimum and
      their count times the maximum. */
  lemma {:induction false} SumBounds(xs: seq<real>, lo: real, hi: real)
    requires forall i :: 0 <= i < |xs| ==> lo <= xs[i] <= hi
    ensures |xs| as real * lo <= Sum(xs) <= |xs| as real * hi
    decreases |xs|
  {
    if |xs| > 0 {
      var init, last := xs[..|xs| - 1], xs[|xs| - 1];
      assert forall i :: 0 <= i < |init| ==> init[i] == xs[i];
      SumBounds(init, lo, hi);
      var n := |init| as real;
      assert Sum(xs) == Sum(init) + last;
      assert lo <= last <= hi;
      assert |xs| as real == n + 1.0;
      assert (n + 1.0) * lo == n * lo + lo && (n + 1.0) * hi == n * hi + hi;
    }
  }

  /** A quotient by a positive count lies between the bounds the dividend
      lies between, scaled down. */
  lemma DivBounds(s: real, n: real, lo: real, hi: real)
    requires n > 0.0 && n * lo <= s <= n * hi
    ensures lo <= s / n <= hi
  {
    var q := s / n;
    assert q * n == s;
  }

  /** The mean of values within bounds is within the same bounds. */
  lemma MeanBetween(xs: seq<real>, lo: real, hi: real)
    requires |xs| > 0
    requires forall i :: 0 <= i < |xs| ==> lo <= xs[i] <= hi
    ensures lo <= Sum(xs) / |xs| as real <= hi
  {
    SumBounds(xs, lo, hi);
    DivBounds(Sum(xs), |xs| as real, lo, hi);
  }

  lemma AverageBounds(xs: seq<real>)
    requires |xs| > 0
    ensures MinOf(xs) <= Sum(xs) / |xs| as real <= MaxOf(xs)
  {
    MeanBetween(xs, MinOf(xs), MaxOf(xs));
  }

  // -------------------------------------------------------------- health

  datatype Status = Healthy | Warning | Error

  /** What `psutil` reports for the health check, or `None` when it raised. */
  datatype Readings = Readings(memoryPercent: real, cpuPercent: real)

  datatype Health =
    | HealthError
    | HealthReport(status: Status, apiCallsTotal: nat, successRate: real, errorRate: real, uptimeSeconds: real)

  /** The status rule: healthy exactly when memory and cpu are both below
      90 percent, a warning otherwise. */
  function StatusOf(memoryPercent: real, cpuPercent: real): (s: Status)
    ensures s == Healthy <==> memoryPercent < 90.0 && cpuPercent < 90.0
    ensures s != Error
  {
    if memoryPercent < 90.0 && cpuPercent < 90.0 then Healthy else Warning
  }

  /** `get_system_health()` without the rounding: the error report when the
      readings raised, otherwise the status and the call statistics. */
  function SystemHealth(m: Monitor, readings: Option<Readings>, now: real): (h: Health)
    requires Valid(m)
    ensures readings.None? <==> h.HealthError?
    ensures h.HealthReport? ==> h.apiCallsTotal == m.apiCalls
    ensures h.HealthReport? ==> h.successRate == Rate(m.successfulCalls, m.apiCalls)
                                && h.errorRate == Rate(m.errorCalls, m.apiCalls)
    ensures h.HealthReport? ==> h.uptimeSeconds == now - m.startTime
    ensures h.HealthReport? && m.apiCalls > 0 ==> h.successRate + h.errorRate == 100.0
    ensures h.HealthReport? ==> (h.status == Healthy <==> readings.value.memoryPercent < 90.0
                                                          && readings.value.cpuPercent < 90.0)
  {
    match readings
    case None => HealthError
    case Some(rd) =>
      assert m.apiCalls > 0 ==> Rate(m.successfulCalls, m.apiCalls) + Rate(m.errorCalls, m.apiCalls) == 100.0 by {
        if m.apiCalls > 0 {
          RatesComplement(m);
        }
      }
      HealthReport(StatusOf(rd.memoryPercent, rd.cpuPercent), m.apiCalls,
                   Rate(m.successfulCalls, m.apiCalls), Rate(m.errorCalls, m.apiCalls),
                   now - m.startTime)
  }

  // ---------------------------------------------------------- decorator

  /** The `monitor_operation` wrapper around one call whose outcome is
      `result`. When the call returns, `end_operation` counts a success with
      the `first` reading. When the call raises, or when that success-path
      `end_operation` raises, the handler counts an error with the next
      reading and re-raises: the call's own error, or the reading's error
      when the handler's reading fails too. */
  function MonitorOperation<T>(m: Monitor, start: real, result: Outcome<T>,
                               first: Outcome<Sample>, second: Outcome<Sample>): (r: (Monitor, Outcome<T>))
    requires Valid(m)
    ensures Valid(r.0) && r.0.startTime == m.startTime
    ensures r.1.Ok? <==> result.Ok? && first.Ok?
    ensures r.1.Ok? ==> r.1 == result
    ensures result.Ok? && first.Ok? ==>
              && |r.0.history| == |m.history| + 1 && r.0.apiCalls == m.apiCalls + 1
              && r.0.successfulCalls == m.successfulCalls + 1 && r.0.errorCalls == m.errorCalls
    ensures result.Raised? ==>
              && r.1 == (if first.Ok? then result else Raised(first.error))
              && |r.0.history| == |m.history| + (if first.Ok? then 1 else 0)
              && r.0.apiCalls == m.apiCalls + 1
              && r.0.successfulCalls == m.successfulCalls && r.0.errorCalls == m.errorCalls + 1
    ensures result.Ok? && first.Raised? ==>
              && r.1 == (if second.Ok? then Raised(first.error) else Raised(second.error))
              && |r.0.history| == |m.history| + (if second.Ok? then 1 else 0)
              && r.0.apiCalls == m.apiCalls + 2
              && r.0.successfulCalls == m.successfulCalls + 1 && r.0.errorCalls == m.errorCalls + 1
  {
    match result
    case Ok(v) =>
      var (m1, ended) := EndOperation(m, start, true, first);
      if ended.Ok? then (m1, result)
      else
        var (m2, handled) := EndOperation(m1, start, false, second);
        (m2, if handled.Ok? then Raised(ended.error) else Raised(handled.error))
    case Raised(e) =>
      var (m1, ended) := EndOperation(m, start, false, first);
      (m1, if ended.Ok? then result else Raised(ended.error))
  }
}

=== FILE: reply_format.dfy ===
/** The reply layout the application asks the language model for, one
    `DESCRIPTION:` line and one `TAGS:` line with the tags in brackets, and
    the proof that the parser reads such a reply back. */
module ReplyFormat {
  import opened Wrappers
  import opened Text
  import opened ReplyLine
  import opened Llm

  function DescriptionPart(description: string): string {
    DescriptionKey + " " + description
  }

  function Bracketed(tags: seq<string>): string {
    "[" + Join(tags, ", ") + "]"
  }

  function TagsPart(tags: seq<string>): string {
    TagsKey + " " + Bracketed(tags)
  }

  /** The markers and the space after them hold no line break. */
  lemma MarkersOnOneLine()
    ensures Avoids(DescriptionKey + " ", {'\n'}) && Avoids(TagsKey + " ", {'\n'})
  {
  }

  /** A reply laid out as the prompt requests. */
  function FormatReply(description: string, tags: seq<string>): string {
    DescriptionPart(description) + "\n" + TagsPart(tags)
  }

  /** A description the layout carries: non-empty, stripped, on one line,
      and not holding the marker itself. */
  predicate PlainDescription(d: string) {
    |d| > 0 && IsStripped(d) && Avoids(d, {'\n'}) && !Contains(d, DescriptionKey)
  }

  /** Tags the layout carries: at least one, each clean and free of line
      breaks, colons, commas and brackets. */
  predicate PlainTags(tags: seq<string>) {
    |tags| > 0 && CleanTags(tags)
    && forall i :: 0 <= i < |tags| ==> Avoids(tags[i], {'\n', ':', ',', '[', ']'})
  }

  lemma DescriptionPartParses(d: string)
    requires PlainDescription(d)
    ensures Avoids(DescriptionPart(d), {'\n'})
    ensures Classify(DescriptionPart(d)) == DescriptionLine(d)
  {
    var line := DescriptionPart(d);
    assert line == DescriptionKey + (" " + d);
    MarkersOnOneLine();
    AvoidsConcat(DescriptionKey + " ", d, {'\n'});
    assert IsStripped(line) by {
      assert line[0] == 'D' && line[|line| - 1] == d[|d| - 1];
    }
    StripStripped(line);
    RemovePrefix(DescriptionKey, " " + d);
    NotBehindSpace(d, DescriptionKey);
    RemoveAbsent(" " + d, DescriptionKey);
    StripSpaced(d);
  }

  /** The bracketed tags, once whitespace and brackets are stripped, are the
      tags joined by ", ". */
  lemma BracketsStripped(tags: seq<string>)
    requires PlainTags(tags)
    ensures StripChars(Bracketed(tags), Brackets) == Join(tags, ", ")
  {
    var j := Join(tags, ", ");
    JoinEnds(tags, ", ");
    forall i | 0 <= i < |tags| ensures Avoids(tags[i], Brackets) {
    }
    JoinAvoids(tags, ", ", Brackets);
    var b := "[" + j + "]";
    assert b[1..] == j + "]";
    assert TrimStart(b, Brackets) == j + "]";
    assert (j + "]")[..|j|] == j;
    assert TrimEnd(j + "]", Brackets) == j;
  }

  /** The pieces of the joined tags strip back to the tags. */
  lemma PiecesStripped(tags: seq<string>)
    requires PlainTags(tags)
    ensures StrippedPieces(Split(Join(tags, ", "), ',')) == tags
  {
    forall i | 0 <= i < |tags| ensures Avoids(tags[i], {','}) {
    }
    SplitCommaJoin(tags);
    var ps := Split(Join(tags, ", "), ',');
    forall i | 0 <= i < |ps| ensures Strip(ps[i]) == tags[i] {
      if i == 0 {
        StripStripped(tags[0]);
      } else {
        StripSpaced(tags[i]);
      }
    }
    StrippedPiecesKeepAll(ps, tags);
  }

  /** The bracketed tags avoid line breaks and colons, and are stripped. */
  lemma BracketedPlain(tags: seq<string>)
    requires PlainTags(tags)
    ensures var b := Bracketed(tags);
            Avoids(b, {'\n'}) && Avoids(b, {':'}) && IsStripped(b)
  {
    var j := Join(tags, ", ");
    forall i | 0 <= i < |tags| ensures Avoids(tags[i], {'\n'}) && Avoids(tags[i], {':'}) {
    }
    JoinAvoids(tags, ", ", {'\n'});
    JoinAvoids(tags, ", ", {':'});
    AvoidsConcat("[", j, {'\n'});
    AvoidsConcat("[" + j, "]", {'\n'});
    AvoidsConcat("[", j, {':'});
    AvoidsConcat("[" + j, "]", {':'});
    var b := "[" + j + "]";
    assert b[0] == '[' && b[|b| - 1] == ']';
  }

  /** Removing the marker and stripping leaves the bracketed tags. */
  lemma MarkerRemoved(b: string)
    requires |b| > 0 && Avoids(b, {':'}) && IsStripped(b)
    ensures Strip(RemoveAll(TagsKey + (" " + b), TagsKey)) == b
  {
    RemovePrefix(TagsKey, " " + b);
    AvoidsConcat(" ", b, {':'});
    AbsentChar(" " + b, TagsKey, 4);
    RemoveAbsent(" " + b, TagsKey);
    StripSpaced(b);
  }

  lemma TagsPartParses(tags: seq<string>)
    requires PlainTags(tags)
    ensures Avoids(TagsPart(tags), {'\n'})
    ensures Classify(TagsPart(tags)) == TagsLine(tags)
  {
    var b := Bracketed(tags);
    var line := TagsPart(tags);
    assert line == TagsKey + (" " + b);
    BracketedPlain(tags);
    MarkersOnOneLine();
    AvoidsConcat(TagsKey + " ", b, {'\n'});
    assert IsStripped(line) by {
      assert line[0] == 'T' && line[|line| - 1] == ']';
    }
    StripStripped(line);
    assert !(DescriptionKey <= line) by {
      assert line[0] != DescriptionKey[0];
    }
    MarkerRemoved(b);
    BracketsStripped(tags);
    PiecesStripped(tags);
  }

  /** Such a reply has no whitespace to strip at either end. */
  lemma FormatStripped(description: string, tags: seq<string>)
    ensures Strip(FormatReply(description, tags)) == FormatReply(description, tags)
  {
    var reply := FormatReply(description, tags);
    assert IsStripped(reply) by {
      assert reply[0] == 'D' && reply[|reply| - 1] == ']';
    }
    StripStripped(reply);
  }

  /** A reply in the requested layout has two lines: its description part
      and its tags part. */
  lemma FormatLines(description: string, tags: seq<string>)
    requires PlainDescription(description) && PlainTags(tags)
    ensures ReplyLines(FormatReply(description, tags)) == [DescriptionPart(description), TagsPart(tags)]
  {
    var d1, t1 := DescriptionPart(description), TagsPart(tags);
    FormatStripped(description, tags);
    assert FormatReply(description, tags) == d1 + ['\n'] + t1;
    assert Avoids(d1, {'\n'}) by { DescriptionPartParses(description); }
    assert Avoids(t1, {'\n'}) by { TagsPartParses(tags); }
    SplitAfter(d1, '\n', t1);
    SplitNone(t1, '\n');
  }

  /** A reply of two lines is classified line by line. */
  lemma TwoLineKinds(text: string, a: string, b: string)
    requires ReplyLines(text) == [a, b]
    ensures ReplyKinds(text) == [Classify(a), Classify(b)]
  {
    var kinds := ReplyKinds(text);
    assert kinds[0] == Classify(a) && kinds[1] == Classify(b);
  }

  /** The two lines of such a reply say the description and the tags. */
  lemma FormatKinds(description: string, tags: seq<string>)
    requires PlainDescription(description) && PlainTags(tags)
    ensures ReplyKinds(FormatReply(description, tags)) == [DescriptionLine(description), TagsLine(tags)]
  {
    FormatLines(description, tags);
    TwoLineKinds(FormatReply(description, tags), DescriptionPart(description), TagsPart(tags));
    DescriptionPartParses(description);
    TagsPartParses(tags);
  }

  /** A reply in the requested layout parses back to its description and
      its tags. */
  lemma ParseFormatted(description: string, tags: seq<string>)
    requires PlainDescription(description) && PlainTags(tags)
    ensures ParseDescriptionTags(FormatReply(description, tags)) == (description, tags)
  {
    var kinds := ReplyKinds(FormatReply(description, tags));
    FormatKinds(description, tags);
    LastDescriptionAt(kinds, 0);
    LastTagsAt(kinds, 1);
  }
}

=== FILE: reply_line.dfy ===
/** What one line of a language-model reply says under the
    `DESCRIPTION:`/`TAGS:` format the application asks for. */
module ReplyLine {
  import opened Text

  const DescriptionKey := "DESCRIPTION:"
  const TagsKey := "TAGS:"
  const Brackets: set<char> := {'[', ']'}

  /** Every tag is non-empty and carries no surrounding whitespace. */
  predicate CleanTags(tags: seq<string>) {
    forall i :: 0 <= i < |tags| ==> |tags[i]| > 0 && IsStripped(tags[i])
  }

  /** `[p.strip() for p in pieces if p.strip()]`: the non-empty stripped
      pieces, in order. */
  function StrippedPieces(pieces: seq<string>): (r: seq<string>)
    ensures CleanTags(r)
    ensures |r| <= |pieces|
    ensures forall j :: 0 <= j < |pieces| && |Strip(pieces[j])| > 0 ==> Strip(pieces[j]) in r
    ensures forall t :: t in r ==> exists j :: 0 <= j < |pieces| && t == Strip(pieces[j])
    decreases |pieces|
  {
    if |pieces| == 0 then []
    else
      var t := Strip(pieces[0]);
      var rest := StrippedPieces(pieces[1..]);
      var r := if |t| > 0 then [t] + rest else rest;
      assert CleanTags(r) by {
        forall i | 0 <= i < |r|
          ensures |r[i]| > 0 && IsStripped(r[i])
        {
          if |t| > 0 && i > 0 {
            assert r[i] == rest[i - 1];
          }
        }
      }
      assert forall j :: 0 <= j < |pieces| && |Strip(pieces[j])| > 0 ==> Strip(pieces[j]) in r by {
        forall j | 0 <= j < |pieces| && |Strip(pieces[j])| > 0
          ensures Strip(pieces[j]) in r
        {
          if j > 0 {
            assert pieces[j] == pieces[1..][j - 1];
          }
        }
      }
      assert forall x :: x in r ==> exists j :: 0 <= j < |pieces| && x == Strip(pieces[j]) by {
        forall x | x in r
          ensures exists j :: 0 <= j < |pieces| && x == Strip(pieces[j])
        {
          if x in rest {
            var j :| 0 <= j < |pieces| - 1 && x == Strip(pieces[1..][j]);
            assert pieces[1..][j] == pieces[j + 1];
          } else {
            assert x == Strip(pieces[0]);
          }
        }
      }
      r
  }

  /** When every piece strips to a non-empty tag, no piece is dropped. */
  lemma {:induction false} StrippedPiecesKeepAll(pieces: seq<string>, tags: seq<string>)
    requires |pieces| == |tags|
    requires forall i :: 0 <= i < |pieces| ==> Strip(pieces[i]) == tags[i] && |tags[i]| > 0
    ensures StrippedPieces(pieces) == tags
    decreases |pieces|
  {
    if |pieces| > 0 {
      StrippedPiecesKeepAll(pieces[1..], tags[1..]);
      assert tags == [tags[0]] + tags[1..];
    }
  }

  /** The tags of a `TAGS:` line: every `TAGS:` removed, whitespace and then
      brackets stripped from both ends, split on commas, pieces trimmed and
      empty ones dropped. */
  function ParseTags(line: string): (tags: seq<string>)
    ensures CleanTags(tags)
  {
    StrippedPieces(Split(StripChars(Strip(RemoveAll(line, TagsKey)), Brackets), ','))
  }

  /** What one line of the reply says. */
  datatype LineKind = DescriptionLine(text: string) | TagsLine(tags: seq<string>) | OtherLine

  /** A stripped line starting with `DESCRIPTION:` gives a description (every
      occurrence of the marker removed, then stripped); otherwise one
      starting with `TAGS:` gives tags; any other line nothing. */
  function Classify(line: string): (k: LineKind)
    ensures k.DescriptionLine? <==> DescriptionKey <= Strip(line)
    ensures k.TagsLine? <==> !(DescriptionKey <= Strip(line)) && TagsKey <= Strip(line)
  {
    var l := Strip(line);
    if DescriptionKey <= l then DescriptionLine(Strip(RemoveAll(l, DescriptionKey)))
    else if TagsKey <= l then TagsLine(ParseTags(l))
    else OtherLine
  }

  /** A description carries no surrounding whitespace, and every tag is
      clean. */
  lemma ClassifyClean(line: string)
    ensures Classify(line).DescriptionLine? ==> IsStripped(Classify(line).text)
    ensures Classify(line).TagsLine? ==> CleanTags(Classify(line).tags)
  {
  }
}

=== FILE: text.dfy ===
/** The Python `str` operations the engine relies on, as total functions on
    `seq<char>`. Where Python consults the Unicode database (case mapping,
    whitespace), only the ASCII part is modelled. */
module Text {

  /** The ASCII characters Python's `str.split()` and `str.strip()` treat as
      whitespace: tab, line feed, vertical tab, form feed, carriage return,
      the four information separators and space. */
  const Whitespace: set<char> :=
    {9 as char, 10 as char, 11 as char, 12 as char, 13 as char,
     28 as char, 29 as char, 30 as char, 31 as char, ' '}

  /** Membership in `Whitespace`, written as ranges. */
  predicate IsSpace(c: char)
    ensures IsSpace(c) <==> c in Whitespace
  {
    (9 as char <= c <= 13 as char) || (28 as char <= c <= 31 as char) || c == ' '
  }

  predicate NoSpace(s: string) {
    forall i :: 0 <= i < |s| ==> !IsSpace(s[i])
  }

  /** No whitespace at either end: what `str.strip()` produces. */
  predicate IsStripped(s: string) {
    s == [] || (!IsSpace(s[0]) && !IsSpace(s[|s| - 1]))
  }

  /** Every character above the space is not whitespace. */
  lemma AboveSpace(c: char)
    requires ' ' < c
    ensures !IsSpace(c)
  {
  }

  /** A string whose two ends lie above the space is stripped. */
  lemma EndsAboveSpace(s: string)
    requires |s| > 0 && ' ' < s[0] && ' ' < s[|s| - 1]
    ensures IsStripped(s)
  {
    AboveSpace(s[0]);
    AboveSpace(s[|s| - 1]);
  }

  function Min(a: int, b: int): int {
    if a <= b then a else b
  }

  function Max(a: int, b: int): int {
    if a >= b then a else b
  }

  // ---------------------------------------------------------------- case

  predicate IsLetter(c: char) {
    ('A' <= c <= 'Z') || ('a' <= c <= 'z')
  }

  function LowerChar(c: char): char {
    if 'A' <= c <= 'Z' then (c as int + 32) as char else c
  }

  function UpperChar(c: char): char {
    if 'a' <= c <= 'z' then (c as int - 32) as char else c
  }

  /** `s.lower()`. */
  function Lower(s: string): (r: string)
    ensures |r| == |s|
    ensures forall i :: 0 <= i < |s| ==> r[i] == LowerChar(s[i])
  {
    seq(|s|, i requires 0 <= i < |s| => LowerChar(s[i]))
  }

  /** Lower-casing twice is lower-casing once, so a lower-cased query can be
      handed to any function that lower-cases its input. */
  lemma LowerIdempotent(s: string)
    ensures Lower(Lower(s)) == Lower(s)
  {
  }

  /** `s.title()`: a letter is upper-cased when the character before it is
      not a letter and lower-cased otherwise; other characters are kept. */
  function Title(s: string): (r: string)
    ensures |r| == |s|
    ensures Lower(r) == Lower(s)
  {
    var r := TitleAfter(s, false);
    assert forall i :: 0 <= i < |s| ==> Lower(r)[i] == Lower(s)[i];
    r
  }

  /** The rest of `s.title()` once the character before `s` is known to be
      a letter or not; each character keeps its lower-case form. */
  function TitleAfter(s: string, afterLetter: bool): (r: string)
    ensures |r| == |s|
    ensures forall i :: 0 <= i < |s| ==> LowerChar(r[i]) == LowerChar(s[i])
    decreases |s|
  {
    if |s| == 0 then ""
    else
      var c := if !IsLetter(s[0]) then s[0]
               else if afterLetter then LowerChar(s[0])
               else UpperChar(s[0]);
      var rest := TitleAfter(s[1..], IsLetter(s[0]));
      var r := [c] + rest;
      assert forall i :: 1 <= i < |s| ==> r[i] == rest[i - 1] && s[i] == s[1..][i - 1];
      r
  }

  // ----------------------------------------------------------- substrings

  /** Python's `needle in hay` on strings: `needle` occurs contiguously. */
  predicate Contains(hay: string, needle: string) {
    exists i | 0 <= i <= |hay| :: needle <= hay[i..]
  }

  lemma ContainsTail(s: string, needle: string)
    requires |s| > 0 && Contains(s[1..], needle)
    ensures Contains(s, needle)
  {
    var i :| 0 <= i <= |s| - 1 && needle <= s[1..][i..];
    assert s[1..][i..] == s[i + 1..];
  }

  lemma {:induction false} ContainsSuffix(s: string, k: nat, needle: string)
    requires k <= |s| && Contains(s[k..], needle)
    ensures Contains(s, needle)
    decreases k
  {
    if k > 0 {
      assert s[1..][k - 1..] == s[k..];
      ContainsSuffix(s[1..], k - 1, needle);
      ContainsTail(s, needle);
    }
  }

  /** What occurs in a suffix of `s` occurs in `s`. */
  lemma ContainsInSuffix(s: string, rest: string, needle: string)
    requires |rest| <= |s| && s[|s| - |rest|..] == rest && Contains(rest, needle)
    ensures Contains(s, needle)
  {
    ContainsSuffix(s, |s| - |rest|, needle);
  }

  /** What occurs in a substring occurs in the whole string. */
  lemma ContainsTrans(a: string, b: string, c: string)
    requires Contains(a, b) && Contains(b, c)
    ensures Contains(a, c)
  {
    var i :| 0 <= i <= |a| && b <= a[i..];
    var j :| 0 <= j <= |b| && c <= b[j..];
    assert forall k :: 0 <= k < |c| ==> c[k] == a[i + j + k];
    assert c <= a[i + j..];
  }

  /** The empty string occurs in every string, and no non-empty string
      occurs in the empty one. */
  lemma ContainsEmpty(s: string, w: string)
    ensures Contains(s, "")
    ensures |w| > 0 ==> !Contains("", w)
  {
    assert "" <= s[0..];
  }

  /** `s.replace(pat, "")`: every non-overlapping occurrence of `pat`,
      scanning from the left, removed. */
  function RemoveAll(s: string, pat: string): (r: string)
    requires |pat| > 0
    ensures |r| <= |s|
    decreases |s|
  {
    if |s| == 0 then ""
    else if pat <= s then RemoveAll(s[|pat|..], pat)
    else [s[0]] + RemoveAll(s[1..], pat)
  }

  /** Removing a pattern that does not occur changes nothing. */
  lemma {:induction false} RemoveAbsent(s: string, pat: string)
    requires |pat| > 0 && !Contains(s, pat)
    ensures RemoveAll(s, pat) == s
    decreases |s|
  {
    if |s| > 0 {
      assert s[0..] == s;
      if Contains(s[1..], pat) {
        ContainsTail(s, pat);
      }
      RemoveAbsent(s[1..], pat);
      assert s == [s[0]] + s[1..];
    }
  }

  // ----------------------------------------------------------- stripping

  function TrimStart(s: string, cs: set<char>): (r: string)
    ensures |r| <= |s|
    ensures r == [] || r[0] !in cs
    decreases |s|
  {
    if |s| > 0 && s[0] in cs then TrimStart(s[1..], cs) else s
  }

  /** What `TrimStart` leaves is a suffix of its input. Kept out of the
      function's contract: as an `ensures` it feeds the solver a fresh
      suffix term at every unfolding. */
  lemma {:induction false} TrimStartSuffix(s: string, cs: set<char>)
    ensures var r := TrimStart(s, cs); r == s[|s| - |r|..]
    decreases |s|
  {
    if |s| > 0 && s[0] in cs {
      TrimStartSuffix(s[1..], cs);
    }
  }

  function TrimEnd(s: string, cs: set<char>): (r: string)
    ensures |r| <= |s| && r == s[..|r|]
    ensures r == [] || r[|r| - 1] !in cs
    decreases |s|
  {
    if |s| > 0 && s[|s| - 1] in cs then TrimEnd(s[..|s| - 1], cs) else s
  }

  /** `s.strip(chars)`: the characters of `cs` dropped from both ends; what
      is left is a contiguous piece of `s`. */
  function StripChars(s: string, cs: set<char>): (r: string)
    ensures r == [] || (r[0] !in cs && r[|r| - 1] !in cs)
    ensures Contains(s, r)
  {
    var t := TrimStart(s, cs);
    var r := TrimEnd(t, cs);
    assert r <= s[|s| - |t|..] by {
      TrimStartSuffix(s, cs);
    }
    r
  }

  /** `s.strip()`. */
  function Strip(s: string): (r: string)
    ensures IsStripped(r)
    ensures |r| <= |s|
  {
    StripChars(s, Whitespace)
  }

  /** A stripped string is its own strip: `strip` is idempotent. */
  lemma StripStripped(s: string)
    requires IsStripped(s)
    ensures Strip(s) == s
  {
  }

  // ------------------------------------------------------------ splitting

  /** The longest whitespace-free prefix of `s`. */
  function TakeWord(s: string): (w: string)
    ensures w <= s && NoSpace(w)
    ensures |w| < |s| ==> IsSpace(s[|w|])
    ensures |s| > 0 && !IsSpace(s[0]) ==> |w| > 0
    decreases |s|
  {
    if |s| == 0 || IsSpace(s[0]) then "" else [s[0]] + TakeWord(s[1..])
  }

  /** `s.split()`: the maximal runs of non-whitespace characters, in order. */
  function Words(s: string): (ws: seq<string>)
    ensures forall i :: 0 <= i < |ws| ==> |ws[i]| > 0 && NoSpace(ws[i])
    decreases |s|
  {
    var t := TrimStart(s, Whitespace);
    if |t| == 0 then []
    else
      var w := TakeWord(t);
      assert |w| > 0 by {
        assert !IsSpace(t[0]);
      }
      var rest := Words(t[|w|..]);
      var ws := [w] + rest;
      assert forall i :: 1 <= i < |ws| ==> ws[i] == rest[i - 1];
      ws
  }

  /** One step of `Words`: the first word of a string with any words is the
      word at the start of its left-trimmed form. */
  lemma WordsStep(s: string)
    requires |Words(s)| > 0
    ensures var t := TrimStart(s, Whitespace);
            |t| > 0 && Words(s) == [TakeWord(t)] + Words(t[|TakeWord(t)|..])
  {
  }

  /** The first word of a string with any words occurs in it. */
  lemma FirstWordOccurs(s: string)
    requires |Words(s)| > 0
    ensures Contains(s, Words(s)[0])
  {
    WordsStep(s);
    var t := TrimStart(s, Whitespace);
    TrimStartSuffix(s, Whitespace);
    assert TakeWord(t) <= s[|s| - |t|..];
  }

  /** Every word of `s` occurs in `s`. */
  lemma {:induction false} WordOccurs(s: string, i: nat)
    requires i < |Words(s)|
    ensures Contains(s, Words(s)[i])
    decreases |s|
  {
    if i == 0 {
      FirstWordOccurs(s);
    } else {
      WordsStep(s);
      var t := TrimStart(s, Whitespace);
      var rest := t[|TakeWord(t)|..];
      var w := Words(rest)[i - 1];
      assert Words(s)[i] == w;
      WordOccurs(rest, i - 1);
      ContainsSuffix(t, |TakeWord(t)|, w);
      TrimStartSuffix(s, Whitespace);
      ContainsInSuffix(s, t, w);
    }
  }

  /** `sep.join(parts)`. */
  function Join(parts: seq<string>, sep: string): string {
    if |parts| == 0 then ""
    else if |parts| == 1 then parts[0]
    else parts[0] + sep + Join(parts[1..], sep)
  }

  /** A one-element list when `present`, the empty list otherwise. */
  function Section(present: bool, sentence: string): (r: seq<string>)
    ensures |r| == (if present then 1 else 0)
  {
    if present then [sentence] else []
  }

  /** Every part occurs in the joined string. */
  lemma {:induction false} JoinContains(parts: seq<string>, sep: string, i: nat)
    requires i < |parts|
    ensures Contains(Join(parts, sep), parts[i])
    decreases i
  {
    var j := Join(parts, sep);
    if i == 0 {
      assert parts[0] <= j[0..];
    } else {
      var rest := Join(parts[1..], sep);
      JoinContains(parts[1..], sep, i - 1);
      var k := |parts[0] + sep|;
      assert j[k..] == rest;
      ContainsSuffix(j, k, parts[i]);
    }
  }

  lemma {:induction false} TakeWordAll(w: string, rest: string)
    requires NoSpace(w)
    requires rest == [] || IsSpace(rest[0])
    ensures TakeWord(w + rest) == w
    decreases |w|
  {
    if |w| > 0 {
      var s := w + rest;
      assert s[0] == w[0] && !IsSpace(w[0]);
      assert s[1..] == w[1..] + rest;
      assert NoSpace(w[1..]) by {
        assert forall i :: 0 <= i < |w| - 1 ==> w[1..][i] == w[i + 1];
      }
      TakeWordAll(w[1..], rest);
      assert w == [w[0]] + w[1..];
    } else {
      assert w + rest == rest;
    }
  }

  lemma TrimStartSpace(s: string)
    requires s == [] || !IsSpace(s[0])
    ensures TrimStart(" " + s, Whitespace) == s
  {
    assert (" " + s)[1..] == s;
    assert TrimStart(s, Whitespace) == s;
  }

  /** Splitting words joined by single spaces gives the words back, so
      `split()` loses nothing but the whitespace between words. */
  lemma {:induction false} WordsJoin(ws: seq<string>)
    requires forall i :: 0 <= i < |ws| ==> |ws[i]| > 0 && NoSpace(ws[i])
    ensures Words(Join(ws, " ")) == ws
    decreases |ws|
  {
    if |ws| == 0 {
    } else if |ws| == 1 {
      TakeWordAll(ws[0], "");
      assert ws[0] + "" == ws[0];
      assert ws[0][|ws[0]|..] == "";
    } else {
      var w := ws[0];
      var tail := Join(ws[1..], " ");
      var s := w + " " + tail;
      assert Join(ws, " ") == s;
      assert s == w + (" " + tail);
      TakeWordAll(w, " " + tail);
      assert s[|w|..] == " " + tail;
      WordsJoin(ws[1..]);
      JoinStart(ws[1..]);
      TrimStartSpace(tail);
      assert Words(" " + tail) == Words(tail);
    }
  }

  lemma JoinStart(ws: seq<string>)
    requires |ws| > 0 && |ws[0]| > 0 && NoSpace(ws[0])
    ensures |Join(ws, " ")| > 0 && !IsSpace(Join(ws, " ")[0])
  {
  }

  /** `s.split(sep)` for a one-character separator: the pieces between
      separators, empty ones included. */
  function Split(s: string, sep: char): (parts: seq<string>)
    ensures |parts| >= 1
    ensures forall i :: 0 <= i < |parts| ==> sep !in parts[i]
    decreases |s|
  {
    if |s| == 0 then [""]
    else
      var rest := Split(s[1..], sep);
      if s[0] == sep then [""] + rest
      else [[s[0]] + rest[0]] + rest[1..]
  }

  /** Joining the pieces of a split with the separator rebuilds the string. */
  lemma {:induction false} SplitJoin(s: string, sep: char)
    ensures Join(Split(s, sep), [sep]) == s
    decreases |s|
  {
    if |s| > 0 {
      var rest := Split(s[1..], sep);
      SplitJoin(s[1..], sep);
      if s[0] == sep {
        assert Split(s, sep) == [""] + rest;
        assert ([""] + rest)[1..] == rest;
        assert s == [sep] + s[1..];
      } else {
        var parts := Split(s, sep);
        assert parts[1..] == rest[1..];
        if |rest| == 1 {
          assert s == [s[0]] + rest[0];
        } else {
          assert Join(rest, [sep]) == rest[0] + [sep] + Join(rest[1..], [sep]);
          assert s == [s[0]] + s[1..];
        }
      }
    }
  }

  /** Splitting a string without the separator gives it back whole. */
  lemma {:induction false} SplitNone(s: string, sep: char)
    requires Avoids(s, {sep})
    ensures Split(s, sep) == [s]
    decreases |s|
  {
    if |s| > 0 {
      SplitNone(s[1..], sep);
      assert s == [s[0]] + s[1..];
    }
  }

  /** A leading character other than the separator joins the first piece. */
  lemma SplitCons(c: char, x: string, sep: char)
    requires c != sep
    ensures Split([c] + x, sep) == [[c] + Split(x, sep)[0]] + Split(x, sep)[1..]
  {
    assert ([c] + x)[1..] == x;
  }

  /** A separator after a separator-free piece ends that piece. */
  lemma {:induction false} SplitAfter(a: string, sep: char, b: string)
    requires Avoids(a, {sep})
    ensures Split(a + [sep] + b, sep) == [a] + Split(b, sep)
    decreases |a|
  {
    if |a| == 0 {
      assert a + [sep] + b == [sep] + b;
      assert ([sep] + b)[1..] == b;
    } else {
      SplitAfter(a[1..], sep, b);
      assert a + [sep] + b == [a[0]] + (a[1..] + [sep] + b);
      SplitCons(a[0], a[1..] + [sep] + b, sep);
      assert a == [a[0]] + a[1..];
    }
  }

  /** Splitting on ',' what was joined with ", " gives the first piece and
      every later one behind a space. */
  lemma {:induction false} SplitCommaJoin(ts: seq<string>)
    requires |ts| > 0
    requires forall i :: 0 <= i < |ts| ==> Avoids(ts[i], {','})
    ensures var ps := Split(Join(ts, ", "), ',');
            |ps| == |ts| && ps[0] == ts[0] && forall i :: 1 <= i < |ts| ==> ps[i] == " " + ts[i]
    decreases |ts|
  {
    if |ts| == 1 {
      SplitNone(ts[0], ',');
    } else {
      var tail := Join(ts[1..], ", ");
      SplitCommaJoin(ts[1..]);
      var qs := Split(tail, ',');
      assert Join(ts, ", ") == ts[0] + [','] + ([' '] + tail);
      SplitAfter(ts[0], ',', [' '] + tail);
      SplitCons(' ', tail, ',');
      var ps := Split(Join(ts, ", "), ',');
      assert ps == [ts[0]] + [[' '] + qs[0]] + qs[1..];
      forall i | 1 <= i < |ts| ensures ps[i] == " " + ts[i] {
        if i > 1 {
          assert ps[i] == qs[i - 1] && ts[1..][i - 1] == ts[i];
        }
      }
    }
  }

  /** No character of `s` is one of `cs`. */
  predicate Avoids(s: string, cs: set<char>) {
    forall k :: 0 <= k < |s| ==> s[k] !in cs
  }

  /** Joining pieces that avoid some characters with a separator that
      avoids them gives a string that avoids them. */
  lemma {:induction false} JoinAvoids(ts: seq<string>, sep: string, cs: set<char>)
    requires Avoids(sep, cs) && forall i :: 0 <= i < |ts| ==> Avoids(ts[i], cs)
    ensures Avoids(Join(ts, sep), cs)
    decreases |ts|
  {
    if |ts| > 1 {
      JoinAvoids(ts[1..], sep, cs);
      var t := Join(ts[1..], sep);
      assert forall k :: 0 <= k < |ts[0] + sep + t| ==>
        (ts[0] + sep + t)[k] == (if k < |ts[0]| then ts[0][k]
                                 else if k < |ts[0] + sep| then sep[k - |ts[0]|]
                                 else t[k - |ts[0] + sep|]);
    }
  }

  /** Joined non-empty pieces start with the first piece's first character
      and end with the last piece's last character. */
  lemma {:induction false} JoinEnds(ts: seq<string>, sep: string)
    requires |ts| > 0 && forall i :: 0 <= i < |ts| ==> |ts[i]| > 0
    ensures var j := Join(ts, sep);
            |j| > 0 && j[0] == ts[0][0] && j[|j| - 1] == ts[|ts| - 1][|ts[|ts| - 1]| - 1]
    decreases |ts|
  {
    if |ts| > 1 {
      JoinEnds(ts[1..], sep);
    }
  }

  /** A needle with a character the haystack lacks does not occur in it. */
  lemma AbsentChar(hay: string, needle: string, k: nat)
    requires k < |needle| && Avoids(hay, {needle[k]})
    ensures !Contains(hay, needle)
  {
    forall i | 0 <= i <= |hay| ensures !(needle <= hay[i..]) {
      if i + k < |hay| {
        assert hay[i..][k] == hay[i + k];
      }
    }
  }

  /** A needle that does not start with a space and does not occur in `s`
      does not occur behind a leading space either. */
  lemma NotBehindSpace(s: string, needle: string)
    requires |needle| > 0 && needle[0] != ' ' && !Contains(s, needle)
    ensures !Contains(" " + s, needle)
  {
    forall i | 0 <= i <= |" " + s| ensures !(needle <= (" " + s)[i..]) {
      if i > 0 {
        assert (" " + s)[i..] == s[i - 1..];
      }
    }
  }

  lemma AvoidsConcat(a: string, b: string, cs: set<char>)
    requires Avoids(a, cs) && Avoids(b, cs)
    ensures Avoids(a + b, cs)
  {
    assert forall k :: 0 <= k < |a + b| ==> (a + b)[k] == if k < |a| then a[k] else b[k - |a|];
  }

  /** `(pat + x).replace(pat, "")` is `x.replace(pat, "")`. */
  lemma RemovePrefix(pat: string, x: string)
    requires |pat| > 0
    ensures RemoveAll(pat + x, pat) == RemoveAll(x, pat)
  {
    assert (pat + x)[|pat|..] == x;
  }

  /** Stripping a stripped non-empty string behind one space gives it
      back. */
  lemma StripSpaced(t: string)
    requires |t| > 0 && IsStripped(t)
    ensures Strip(" " + t) == t
  {
    TrimStartSpace(t);
    assert TrimEnd(t, Whitespace) == t;
  }

  // -------------------------------------------------------------- slicing

  /** Python's `s[:n]` for `n >= 0`. */
  function Take<T>(s: seq<T>, n: nat): (r: seq<T>)
    ensures |r| == Min(|s|, n) && r <= s
  {
    if |s| <= n then s else s[..n]
  }

  // -------------------------------------------------------------- numbers

  function DigitChar(d: nat): char
    requires d < 10
  {
    ('0' as int + d) as char
  }

  predicate IsDigits(s: string) {
    forall i :: 0 <= i < |s| ==> '0' <= s[i] <= '9'
  }

  /** `str(n)` for a non-negative integer: its decimal digits. */
  function NatToString(n: nat): (s: string)
    ensures |s| > 0 && IsDigits(s)
    decreases n
  {
    if n < 10 then [DigitChar(n)] else NatToString(n / 10) + [DigitChar(n % 10)]
  }

  /** `int(s)` for a string of decimal digits. */
  function ParseNat(s: string): nat
    requires IsDigits(s)
    decreases |s|
  {
    if |s| == 0 then 0 else ParseNat(s[..|s| - 1]) * 10 + (s[|s| - 1] as int - '0' as int)
  }

  /** Reading back the printed number gives the number. */
  lemma {:induction false} ParseNatToString(n: nat)
    ensures ParseNat(NatToString(n)) == n
    decreases n
  {
    if n >= 10 {
      var s := NatToString(n);
      assert s[..|s| - 1] == NatToString(n / 10);
      ParseNatToString(n / 10);
    }
  }
}

=== FILE: vision.dfy ===
/** Turning a Cloud Vision reply into the application's description, label
    list and OCR text. The HTTP request and the image file are not part of
    this model: the decoded reply is the input. */
module Vision {
  import opened Wrappers
  import opened Text
  import opened Annotations

  const UnableMessage := "Unable to analyze image"
  const NoDetailsMessage := "No specific details detected in the image"
  const ErrorMessage := "Error analyzing image"

  /** At most this many labels and objects are named. */
  const MaxNamed: nat := 3

  /** Longer text is cut to this many characters. */
  const MaxText: nat := 100

  const Ellipsis := "..."

  function LabelNames(ls: seq<Label>): (r: seq<string>)
    ensures |r| == |ls|
    ensures forall i :: 0 <= i < |ls| ==> r[i] == ls[i].description
  {
    seq(|ls|, i requires 0 <= i < |ls| => ls[i].description)
  }

  function ObjectNames(os: seq<LocalizedObject>): (r: seq<string>)
    ensures |r| == |os|
    ensures forall i :: 0 <= i < |os| ==> r[i] == os[i].name
  {
    seq(|os|, i requires 0 <= i < |os| => os[i].name)
  }

  /** The text fragment: kept when at most 100 characters long, otherwise
      its first 100 characters followed by "...". */
  function Truncate(t: string): (r: string)
    ensures |r| <= MaxText + |Ellipsis|
    ensures t[..Min(|t|, MaxText)] <= r
    ensures |t| <= MaxText ==> r == t
    ensures |t| > MaxText ==> |r| == MaxText + |Ellipsis| && r[MaxText..] == Ellipsis
  {
    if |t| > MaxText then t[..MaxText] + Ellipsis else t
  }

  function LabelsSentence(ls: seq<Label>): string {
    "This image contains: " + Join(LabelNames(Take(ls, MaxNamed)), ", ")
  }

  function ObjectsSentence(os: seq<LocalizedObject>): string {
    "Objects detected: " + Join(ObjectNames(Take(os, MaxNamed)), ", ")
  }

  function TextSentence(a: TextAnnotation): string {
    "Text found: " + Truncate(TextOf(a))
  }

  function FacesSentence(count: nat): string {
    "Contains " + NatToString(count) + " face(s)"
  }

  /** The description parts, in the fixed order labels, objects, text,
      faces; each present exactly when its annotation list is non-empty. */
  function DescriptionParts(resp: Response): (parts: seq<string>)
    ensures |parts| == (if |resp.labels| > 0 then 1 else 0) + (if |resp.objects| > 0 then 1 else 0)
                       + (if |resp.texts| > 0 then 1 else 0) + (if |resp.faces| > 0 then 1 else 0)
    ensures |resp.labels| > 0 ==> parts[0] == LabelsSentence(resp.labels)
    ensures var li := if |resp.labels| > 0 then 1 else 0;
            |resp.objects| > 0 ==> parts[li] == ObjectsSentence(resp.objects)
    ensures var li, oi := (if |resp.labels| > 0 then 1 else 0), (if |resp.objects| > 0 then 1 else 0);
            |resp.texts| > 0 ==> parts[li + oi] == TextSentence(resp.texts[0])
    ensures |resp.faces| > 0 ==> parts[|parts| - 1] == FacesSentence(|resp.faces|)
  {
    Section(|resp.labels| > 0, LabelsSentence(resp.labels))
    + Section(|resp.objects| > 0, ObjectsSentence(resp.objects))
    + Section(|resp.texts| > 0, TextSentence(if |resp.texts| > 0 then resp.texts[0] else TextAnnotation(None)))
    + Section(|resp.faces| > 0, FacesSentence(|resp.faces|))
  }

  /** `_generate_description(analysis_result)`: the fixed "unable" message
      when `responses` is missing; a raised error when it is empty;
      otherwise the parts of the first response joined by ". ", or the
      fixed "no details" message when there are none. */
  function GenerateDescription(result: AnalysisResult): (r: Outcome<string>)
    ensures result.responses.None? ==> r == Ok(UnableMessage)
    ensures result.responses == Some([]) ==> r.Raised?
    ensures r.Ok? ==> |r.value| > 0
    ensures result.responses.Some? && |result.responses.value| > 0 ==>
              var parts := DescriptionParts(result.responses.value[0]);
              r == Ok(if |parts| == 0 then NoDetailsMessage else Join(parts, ". "))
  {
    match result.responses
    case None => Ok(UnableMessage)
    case Some(rs) =>
      match FirstResponse(rs)
      case Raised(e) => Raised(e)
      case Ok(resp) =>
        var parts := DescriptionParts(resp);
        if |parts| == 0 then Ok(NoDetailsMessage)
        else
          JoinNonEmpty(parts, ". ");
          Ok(Join(parts, ". "))
  }

  lemma JoinNonEmpty(parts: seq<string>, sep: string)
    requires |parts| > 0 && forall i :: 0 <= i < |parts| ==> |parts[i]| > 0
    ensures |Join(parts, sep)| > 0
  {
  }

  /** Only the first three labels and the first three objects can appear in
      the description: dropping the rest changes nothing. */
  lemma OnlyFirstThreeNamed(resp: Response)
    ensures DescriptionParts(resp.(labels := Take(resp.labels, MaxNamed), objects := Take(resp.objects, MaxNamed)))
            == DescriptionParts(resp)
  {
    var resp' := resp.(labels := Take(resp.labels, MaxNamed), objects := Take(resp.objects, MaxNamed));
    assert Take(resp'.labels, MaxNamed) == Take(resp.labels, MaxNamed);
    assert Take(resp'.objects, MaxNamed) == Take(resp.objects, MaxNamed);
  }

  /** Only the first text annotation (the full text) can appear in the
      description. */
  lemma OnlyFirstTextAnnotation(resp: Response)
    ensures DescriptionParts(resp.(texts := Take(resp.texts, 1))) == DescriptionParts(resp)
  {
  }

  /** The faces part is last, and the number it prints reads back as the
      number of face annotations. */
  lemma FacesPartCounts(resp: Response)
    requires |resp.faces| > 0
    ensures var parts := DescriptionParts(resp);
            exists digits :: IsDigits(digits) && parts[|parts| - 1] == "Contains " + digits + " face(s)"
                             && ParseNat(digits) == |resp.faces|
  {
    var digits := NatToString(|resp.faces|);
    ParseNatToString(|resp.faces|);
    var parts := DescriptionParts(resp);
    assert parts[|parts| - 1] == FacesSentence(|resp.faces|);
  }

  /** Each of the first three label descriptions occurs in the generated
      description. */
  lemma FirstLabelsNamed(result: AnalysisResult, i: nat)
    requires result.responses.Some? && |result.responses.value| > 0
    requires i < Min(|result.responses.value[0].labels|, MaxNamed)
    ensures GenerateDescription(result).Ok?
    ensures Contains(GenerateDescription(result).value, result.responses.value[0].labels[i].description)
  {
    var ls := result.responses.value[0].labels;
    var parts := DescriptionParts(result.responses.value[0]);
    var names := LabelNames(Take(ls, MaxNamed));
    var sentence := LabelsSentence(ls);
    JoinContains(names, ", ", i);
    assert sentence[21..] == Join(names, ", ");
    ContainsSuffix(sentence, 21, names[i]);
    JoinContains(parts, ". ", 0);
    ContainsTrans(Join(parts, ". "), sentence, names[i]);
  }

  /** `_extract_labels(analysis_result)`: every label description, in order;
      no labels when `responses` is missing; a raised error when it is
      empty. */
  function ExtractLabels(result: AnalysisResult): (r: Outcome<seq<string>>)
    ensures result.responses.None? ==> r == Ok([])
    ensures result.responses == Some([]) ==> r.Raised?
    ensures result.responses.Some? && |result.responses.value| > 0 ==>
              r.Ok? && |r.value| == |result.responses.value[0].labels|
              && forall i :: 0 <= i < |r.value| ==> r.value[i] == result.responses.value[0].labels[i].description
  {
    match result.responses
    case None => Ok([])
    case Some(rs) =>
      match FirstResponse(rs)
      case Raised(e) => Raised(e)
      case Ok(resp) => Ok(LabelNames(resp.labels))
  }

  /** The tail of `analyze_image`: the description and the labels, or the
      fixed error message and no labels when either raised. */
  function AnalyzeImage(result: AnalysisResult): (r: (string, seq<string>))
    ensures GenerateDescription(result).Raised? ==> r == (ErrorMessage, [])
    ensures GenerateDescription(result).Ok? ==>
              r.0 == GenerateDescription(result).value && Ok(r.1) == ExtractLabels(result)
    ensures |r.0| > 0
  {
    match GenerateDescription(result)
    case Raised(_) => (ErrorMessage, [])
    case Ok(description) =>
      match ExtractLabels(result)
      case Raised(_) => (ErrorMessage, [])
      case Ok(labels) => (description, labels)
  }

  /** The post-processing of `extract_text`: the descriptions of every text
      annotation after the first (the full text), missing descriptions read
      as empty; nothing when there is no response or no text, and nothing
      when the empty response list raises. */
  function ExtractText(result: AnalysisResult): (r: seq<string>)
    ensures result.responses.None? || result.responses == Some([]) ==> r == []
    ensures result.responses.Some? && |result.responses.value| > 0 ==>
              var texts := result.responses.value[0].texts;
              |r| == (if |texts| == 0 then 0 else |texts| - 1)
              && forall i :: 0 <= i < |r| ==> r[i] == TextOf(texts[i + 1])
  {
    var texts := match result.responses
                 case None => []
                 case Some(rs) => if |rs| == 0 then [] else rs[0].texts;
    if |texts| == 0 then []
    else seq(|texts| - 1, i requires 0 <= i < |texts| - 1 => TextOf(texts[i + 1]))
  }

  /** The canned reply used without an API key: one response with three
      labels, one text annotation and one object. */
  function MockResponse(): (r: AnalysisResult)
    ensures r.responses.Some? && |r.responses.value| == 1
    ensures |r.responses.value[0].labels| == 3
    ensures |r.responses.value[0].texts| == 1 && |r.responses.value[0].objects| == 1
  {
    AnalysisResult(Some([Response(
      [Label("nature", 0.95), Label("landscape", 0.89), Label("outdoor", 0.87)],
      [TextAnnotation(Some("Sample text detected in image"))],
      [LocalizedObject("Tree", 0.92)],
      [])]))
  }

  // ------------------------------------------------ the repository's tests

  /** The description of the test reply with two labels, a text and an
      object names all of them, in the order labels, objects, text; its
      labels are extracted in order. */
  lemma SampleReply()
    ensures var result := AnalysisResult(Some([Response(
              [Label("nature", 0.95), Label("landscape", 0.89)],
              [TextAnnotation(Some("Sample text"))],
              [LocalizedObject("Tree", 0.92)],
              [])]));
            && GenerateDescription(result)
               == Ok(Join(["This image contains: " + Join(["nature", "landscape"], ", "),
                           "Objects detected: " + Join(["Tree"], ", "),
                           "Text found: " + "Sample text"], ". "))
            && ExtractLabels(result) == Ok(["nature", "landscape"])
  {
    var ls := [Label("nature", 0.95), Label("landscape", 0.89)];
    var os := [LocalizedObject("Tree", 0.92)];
    assert Take(ls, MaxNamed) == ls;
    assert LabelNames(ls) == ["nature", "landscape"];
    assert Take(os, MaxNamed) == os;
    assert ObjectNames(os) == ["Tree"];
    var resp := Response(ls, [TextAnnotation(Some("Sample text"))], os, []);
    assert TextSentence(resp.texts[0]) == "Text found: " + "Sample text";
    assert DescriptionParts(resp)
           == ["This image contains: " + Join(["nature", "landscape"], ", "),
               "Objects detected: " + Join(["Tree"], ", "),
               "Text found: " + "Sample text"];
  }

  /** An empty reply cannot be analysed and has no labels. */
  lemma EmptyReply()
    ensures GenerateDescription(AnalysisResult(None)) == Ok(UnableMessage)
    ensures ExtractLabels(AnalysisResult(None)) == Ok([])
  {
  }

  /** The canned reply's labels, all three, in order. */
  lemma MockLabels()
    ensures ExtractLabels(MockResponse()) == Ok(["nature", "landscape", "outdoor"])
  {
    var ls := [Label("nature", 0.95), Label("landscape", 0.89), Label("outdoor", 0.87)];
    assert LabelNames(ls) == ["nature", "landscape", "outdoor"];
  }

  /** The canned reply's description parts: its three labels, its object
      and its text, in that order. */
  lemma MockParts()
    ensures DescriptionParts(MockResponse().responses.value[0])
            == ["This image contains: " + Join(["nature", "landscape", "outdoor"], ", "),
                "Objects detected: " + Join(["Tree"], ", "),
                "Text found: " + "Sample text detected in image"]
  {
    var ls := [Label("nature", 0.95), Label("landscape", 0.89), Label("outdoor", 0.87)];
    var os := [LocalizedObject("Tree", 0.92)];
    assert Take(ls, MaxNamed) == ls;
    assert LabelNames(ls) == ["nature", "landscape", "outdoor"];
    assert Take(os, MaxNamed) == os;
    assert ObjectNames(os) == ["Tree"];
  }

  /** Analysing the canned reply names its labels, object and text, and
      returns all three labels. */
  lemma AnalyzeMockReply()
    ensures AnalyzeImage(MockResponse()).1 == ["nature", "landscape", "outdoor"]
    ensures AnalyzeImage(MockResponse()).0
            == Join(["This image contains: " + Join(["nature", "landscape", "outdoor"], ", "),
                     "Objects detected: " + Join(["Tree"], ", "),
                     "Text found: " + "Sample text detected in image"], ". ")
  {
    MockLabels();
    MockParts();
  }
}

=== FILE: wrappers.dfy ===
/** Optional values and Python-style exceptional outcomes, shared by every module. */
module Wrappers {

  /** A value that may be absent: a missing JSON key, a `None` return. */
  datatype Option<+T> = None | Some(value: T) {

    /** The value, or `default` when absent (Python's `d.get(key, default)`). */
    function GetOr(default: T): T {
      match this
      case Some(v) => v
      case None => default
    }
  }

  /** The exceptions the modelled code can raise on malformed input. */
  datatype Exception = IndexError | KeyError | Other(name: string)

  /** The outcome of a Python call: a returned value or a raised exception. */
  datatype Outcome<+T> = Ok(value: T) | Raised(error: Exception)
}
